=== FILE: README.md ===
# NamixOS desktop shell — a Dafny model

NamixOS (FuSionOS) is a desktop that runs in the browser. This project models
the two pieces of logic in its page scripts:

- **The window lifecycle** (`script.js`). This covers:
  - which apps are open or minimised (`appState`);
  - the dock's two-slot list of recent apps (`recentApps`);
  - the taskbar entries;
  - each window's `style.display`;
  - the z-order counter and the active window;
  - the context-menu target.

  `openWindow`, `closeWindow`, `minimizeWindow`, `focusWindow`, the taskbar and dock click rules, the context-menu actions and the reset done by `enterReboot` are pure transitions on one immutable record (`Shell.Shell`).
- **The terminal and the file manager** (`apps.js`). This covers:
  - the `fileSystem` table and `loadFolder`;
  - `runCommand`, with its exact tokenisation: `trim()` followed by `split(" ")` on a single space;
  - the Enter handler, which echoes the line and then runs it.

The page is a fixed table of windows in document order (`Dom.Document`).
Each window has an id and an optional `data-app-id`. Lookups return the
first match, as `getElementById` and `querySelector` do. The main results
are:

- `ShellInvariants.Inv` holds in every state reachable from boot, whatever
  the user does (`Desktop.Reachable`). `Inv` says:
  - the recent list holds at most two distinct apps, and each of them is open;
  - each taskbar entry belongs to an existing window whose app is open;
  - each displayed window is visible and on the taskbar;
  - the active window is the unique top of the z-order.
- A window's app may be open without a taskbar entry. Minimising a window
  that was never opened has this effect
  (`ShellProperties.MinimizedAppHasNoTaskbarEntry`).
- `runCommand` dispatches exactly on the first piece of the trimmed,
  single-space-split line. `Terminal.Dispatch` and `Terminal.Execute` are
  the two halves of its `switch`. They follow the code, including the `cd`
  folder test that accepts inherited property names (see Findings);
  `Terminal.ExecuteIntended` is the corrected variant.

Modules, in dependency order:

| module | file | models |
|---|---|---|
| `Options` | options.dfy | a value that may be missing (`null` lookups, unset fields) |
| `Seqs` | seqs.dfy | `indexOf` + `splice(i, 1)` |
| `RecentApps` | recent_apps.dfy | the capacity-2 move-to-front list |
| `Dom` | dom.dfy | the window table, JS null/undefined/strings, element lookups |
| `Text` | text.dfy | `trim`, `split(" ")`, `replace` of a plain string |
| `Shell` | shell.dfy | the shell record and every transition |
| `ShellInvariants` | shell_invariants.dfy | the invariant and its preservation |
| `ShellProperties` | shell_properties.dfy | properties relating several transitions |
| `FileManager` | file_manager.dfy | `fileSystem`, `loadFolder` |
| `Terminal` | terminal.dfy | `termPrint`, `runCommand`, the Enter handler |
| `Desktop` | desktop.dfy | user events, click bubbling to the document listeners, sessions |

In two places the model follows the code where a reader might expect
otherwise:

- **Closing the active window.** `closeWindow` never touches the `active`
  class. A closed window can therefore remain the active one.
  `Shell.CloseWindow` keeps `active` unchanged.
- **Minimising a closed window.** `minimizeWindow` on a window that is not
  open marks its app open and hidden. It does not add a taskbar entry.

## Model

| member | source | states |
|---|---|---|
| Seqs.RemoveFirst | script.js:170-175 | `indexOf` + `splice(index, 1)`: an absent value leaves the list unchanged; a present one loses exactly one occurrence (multiset minus that value) |
| Seqs.RemoveFirstIsWithout | script.js:170-175 | on a list without repeats, removing the first occurrence equals the independent definition "every element except x, in order" |
| Seqs.RemoveFirstNoDups | script.js:170-175 | removing from a repeat-free list keeps it repeat-free and removes the value entirely |
| RecentApps.Touch | script.js:154-168 | the app ends at index 0; the rest is an in-order prefix of the old list without the app; the length stays within 2; while there is room nothing is evicted |
| RecentApps.TouchKeepsValid | script.js:154-168 | a list of at most two distinct apps stays so after an app is added |
| RecentApps.TouchOnlyAdds | script.js:154-168 | every entry afterwards is the added app or was already in the list |
| RecentApps.TouchPresentOnlyReorders | script.js:157-162 | re-adding an app that is already present keeps the length and the multiset: it only reorders |
| RecentApps.TouchIdempotent | script.js:154-168 | adding the same app twice is the same as adding it once |
| RecentApps.ThreeDistinctEvictsFirst | script.js:162-167 | adding three distinct apps in turn leaves exactly [third, second]: the tail is evicted |
| Dom.AppOf | script.js:45-47 | `dataset.appId \|\| null`: an app exactly when the attribute is present and non-empty |
| Dom.GetElementById | script.js:59-60 | the result is a window of the page with that id; there is none exactly when the id is empty or no window has it |
| Dom.GetWindowByAppId | script.js:41-43 | the result is a window whose `data-app-id` equals the key; there is none exactly when no window has it |
| Dom.ByIdFindsWindow | script.js:59-60 | on a page with distinct ids, looking up a window's id yields that window |
| Dom.ByAppFindsWindow | script.js:41-43 | on a page with distinct app attributes, looking up a window's app yields that window |
| Dom.SameIdSameWindow | script.js:41-47 | on a well-formed page, two windows with the same id, or the same app, are the same window |
| Text.Trim | apps.js:48 | the result starts and ends with no whitespace, and it is a slice of the input with only whitespace outside it |
| Text.TrimStart | apps.js:48 | only leading whitespace is cut: what is left is a suffix of the input, everything before it is whitespace, and it does not start with whitespace |
| Text.TrimEnd | apps.js:48 | only trailing whitespace is cut: what is left is a prefix of the input, everything after it is whitespace, and it does not end with whitespace |
| Text.PaddedTrans | apps.js:48 | cutting whitespace from the front and then from the back is cutting whitespace from both ends of the input |
| Text.TrimClean | apps.js:48 | a string with no whitespace at either end is trimmed to itself |
| Text.Split | apps.js:48 | `split(" ")` gives at least one piece, no piece holds a space, and joining the pieces with single spaces gives the input back |
| Text.SplitJoin | apps.js:48 | splitting undoes joining for any non-empty list of space-free pieces |
| Text.SplitAfterFirstSpace | apps.js:48 | a space-free head is the first piece, and splitting continues after the first space |
| Text.ReplaceFirst | script.js:124 | `replace` with a plain pattern: where the pattern first occurs, that occurrence is replaced and everything before and after it is kept; a string without the pattern is unchanged |
| Shell.Initial | script.js:28-36 | at page load no app has a state entry, the recent list and the taskbar are empty, no window is shown or has a z-index, the counter is 500, and there is no active window and no context target |
| Shell.EnsureAppState | script.js:49-53 | an app seen for the first time gets a closed entry; an existing entry, every other app and every other field are untouched |
| Shell.AddRecentApp | script.js:154-168 | the app has a state entry (a new one is closed); the recent list is the old one with the app moved to the front, as the capacity-2 list rule gives it; a valid list stays valid; nothing but appState and recent changes |
| Shell.RemoveFromRecent | script.js:170-175 | an absent app changes nothing; otherwise the app leaves the list and the others keep their order; nothing else changes |
| Shell.FocusWindow | script.js:110-115 | the counter rises by one; the window's z is the new counter and above every earlier assignment; other z-values are kept; exactly that window is active |
| Shell.TaskbarLabel | script.js:124 | the entry text is the window's app, or else its id with the first "win-" taken out, wherever it occurs; an id without "win-" is kept whole |
| Shell.AddToTaskbar | script.js:120-143 | a window that already has an entry leaves the state unchanged; otherwise exactly its id is appended at the end; on a repeat-free taskbar the window then has exactly one entry |
| Shell.RenderTaskbar | script.js:120-143 | one entry per taskbar window, in insertion order; each shows its window's taskbar label (the app, or else the id with its first "win-" taken out) and carries a context-menu target naming that text and that window |
| Shell.RemoveFromTaskbar | script.js:146-149 | the window's entry disappears and the others keep their order; no entry means no change |
| Shell.MarkOpened | script.js:62-68 | a window without an app changes nothing; otherwise its app is open and visible, the recent list is the old one with the app moved to the front, other apps keep their entries, and no other field changes |
| Shell.OpenExisting | script.js:58-79 | opening a window of the page displays it, puts it on top and makes it active; only its own taskbar entry may be added, and an existing entry is kept as is; no other window's display or z-index changes; apart from these fields only the app part of opening applies |
| Shell.OpenWindow | script.js:58-79 | an unknown id changes nothing. Otherwise the window is displayed, focused and active; its app is open, not hidden, and the recent list is the old one with the app moved to the front; it has exactly one taskbar entry and at most that entry is added; other apps and the display and z-index of every other window are untouched |
| Shell.CloseWindow | script.js:81-94 | the window is hidden; its app is closed and unhidden and leaves the recent list; its taskbar entry is removed; other apps, the display of every other window, z-order and focus are untouched |
| Shell.MinimizeWindow | script.js:96-108 | the window is hidden; its app is open and hidden, and the recent list is the old one with the app moved to the front; other apps, the display of every other window, the taskbar, z-order and focus are untouched |
| Shell.TaskbarClick | script.js:131-139 | a window that is gone is ignored; one whose display is "none" or unset is opened; a displayed one is only focused |
| Shell.DockRecentClick | script.js:212-216 | an app with no window changes nothing; otherwise its window is opened exactly as `openWindow` does, so the app heads the recent list, open and visible |
| Shell.EnterReboot | script.js:372-384 | every window is hidden; every known app is closed and unhidden (no app is added or dropped); the recent list and the taskbar are empty; the z-counter is kept |
| Shell.Icon | script.js:192-199 | the package icon is given exactly to an app other than the six with an icon of their own |
| Shell.IconsDistinct | script.js:192-199 | the six apps with an icon of their own have six different icons |
| Shell.RenderDockRecent | script.js:177-222 | the divider shows exactly when the list is not empty; there is one button per recent app, in order; a button's dot is drawn exactly when the app is open and hidden |
| Shell.ShowContextMenu | script.js:414-415 | the target is remembered and nothing else changes |
| Shell.HideContextMenu | script.js:433-436 | the target is cleared and nothing else changes |
| Shell.ResolveTarget | script.js:473-478 | a window id naming a window of the page selects it; a window id naming none falls back to the app only when the target has one, and finds nothing exactly when no window has that app; without a window id the app (interpolated, so a missing app reads "undefined") is looked up; any window found is a window of the page with that id or that app |
| Shell.ResolveTargetFinds | script.js:473-478 | a target whose window id names an existing window designates it; a target with an app designates that app's window when its window id is missing, empty, or names no window of the page |
| Shell.CtxAction | script.js:469-494 | with no target nothing happens; an unresolvable target only closes the menu; "open", "hide" and "close" open, minimise or close the window and then close the menu; any other action only closes the menu |
| ShellInvariants.InitialInv | script.js:28-36 | the state at page load satisfies the invariant |
| ShellInvariants.FocusKeepsInv | script.js:110-115 | focusing keeps the invariant, and the focused window is the unique top |
| ShellInvariants.CtxIrrelevant | script.js:414-436 | showing or hiding the context menu keeps the invariant |
| ShellInvariants.MarkedRecentOk | script.js:154-168 | giving an app an open status and moving it to the front keeps the recent list valid and made of open apps |
| ShellInvariants.MarkedWindowState | script.js:58-108 | after an app's status changes, windows of other apps are as they were, and windows of that app are open (and visible unless minimised) |
| ShellInvariants.OpenedTaskbarOk | script.js:58-79 | after opening, every taskbar entry still belongs to an open window, without repeats |
| ShellInvariants.OpenedDisplayOk | script.js:58-79 | after opening, every displayed window is visible and on the taskbar |
| ShellInvariants.OpenedZOk | script.js:110-115 | after opening, the opened window is the unique top and no z-index exceeds the counter |
| ShellInvariants.MinimizedTaskbarOk | script.js:96-108 | after minimising, every taskbar entry still belongs to an open window |
| ShellInvariants.MinimizedDisplayOk | script.js:96-108 | after minimising, every window still displayed is visible and on the taskbar |
| ShellInvariants.OpenKeepsInv | script.js:58-79 | opening a window keeps the invariant |
| ShellInvariants.CloseKeepsInv | script.js:81-94 | closing a window keeps the invariant |
| ShellInvariants.MinimizeKeepsInv | script.js:96-108 | minimising a window keeps the invariant, even for a window that was never opened |
| ShellInvariants.RebootKeepsInv | script.js:372-384 | the reboot reset keeps the invariant |
| ShellInvariants.TaskbarClickKeepsInv | script.js:131-139 | a taskbar click keeps the invariant |
| ShellInvariants.DockRecentClickKeepsInv | script.js:212-216 | a recent-apps click keeps the invariant |
| ShellInvariants.CtxActionKeepsInv | script.js:469-494 | a context-menu action keeps the invariant |
| ShellProperties.CloseClosedIsNoop | script.js:81-94 | closing a window that is hidden, off the taskbar and closed, with its app off the recent list, changes nothing |
| ShellProperties.CloseIdempotent | script.js:81-94 | closing a window twice is the same as closing it once |
| ShellProperties.OpenThenClose | script.js:58-94 | open followed by close leaves the window hidden and off the taskbar, and its app closed and off the recent list |
| ShellProperties.MinimizedAppHasNoTaskbarEntry | script.js:96-108 | a reachable state exists where an app is open but its window has no taskbar entry: "open" does not imply "on the taskbar" |
| ShellProperties.FocusOrder | script.js:110-115 | focusing w1, w2, w1 hands out increasing z-values, and w1 ends above w2 and active |
| ShellProperties.ActiveIsTop | script.js:110-115 | in a consistent state the active window is strictly above every other window |
| ShellProperties.IndicatorIffHidden | script.js:204-210 | in a consistent state a recent app's dot is drawn exactly when the app is minimised |
| ShellProperties.RenderCreatesNoEntry | script.js:205 | in a consistent state the `ensureAppState` inside rendering creates nothing |
| ShellProperties.MinimizeThenClose | script.js:81-108 | minimising shows a dot for the app at the head of the dock; closing afterwards removes the button and the taskbar entry |
| ShellProperties.TaskbarMenuDesignatesItsWindow | script.js:469-478 | in a consistent state every taskbar entry belongs to an existing window, and the context menu opened on it acts on that window |
| ShellProperties.RebootClosesAll | script.js:372-384 | after a reboot the dock area is empty and every app is closed and unhidden |
| FileManager.Folders | apps.js:5-9 | the folder names, in the order of the table |
| FileManager.FoldersInOrder | apps.js:5-9 | the folders are home, documents and music, in that order |
| FileManager.LoadFolder | apps.js:14-24 | the path line always shows the name asked for; a folder of the table is listed entry by entry in table order; any other name ends in a throw after the list is emptied, so the pane shows that name over an empty list |
| FileManager.FolderNamesDistinct | apps.js:5-9 | no folder name appears twice |
| FileManager.StartupListing | apps.js:32 | at start-up the pane lists notes.txt, todo.txt and image.png |
| Terminal.Tokens | apps.js:48 | the line gives at least one piece, no piece holds a space, and the pieces joined with single spaces are the trimmed line |
| Terminal.TermPrint | apps.js:42-45 | the buffer is kept, followed by the text and one newline |
| Terminal.CdReplyAsWritten | apps.js:60-64 | no argument gives the usage line; a folder of the table or an inherited `Object.prototype` name gives "Moved to " + name; anything else gives "Folder not found" |
| Terminal.CdAsWrittenAcceptsInheritedNames | apps.js:62 | `cd toString` (and every other inherited name) reports a move although no such folder exists |
| Terminal.CdReply | apps.js:60-64 | no argument gives the usage line; a folder of the table gives "Moved to " + name; anything else gives "Folder not found" |
| Terminal.CdMovesIffFolder | apps.js:60-64 | `cd` reports a move exactly for a folder of the table, which `loadFolder` can then list |
| Terminal.Dispatch | apps.js:51-87 | each of the six command words selects its own branch and only that word does; the line is "not a command" exactly when its first piece is none of them, and it then carries that piece; `cd` and `open` carry `parts[1]` |
| Terminal.Parse | apps.js:48-51 | the first piece of the trimmed, split line selects the branch: unknown exactly when it is no command word, `clear`, `cd` and `open` exactly for those words; `cd` and `open` take the second piece, or nothing when there is none |
| Terminal.Execute | apps.js:52-87 | only `clear` clears. `help`, `ls` and `about` print the help text, the folder line and the about text. An unknown word prints "Unknown command: " + word. `cd` prints the reply of the folder test as written. A window is requested exactly for `open` of a non-empty app whose "win-" window exists, with "Opening …"; otherwise the usage line or "App not found" |
| Terminal.RunCommand | apps.js:47-88 | the buffer is cleared exactly for `clear`; a first piece that is no command prints "Unknown command: " + piece; `cd` answers with the folder test as written; a window is requested exactly for `open` of a non-empty app whose "win-" window exists, and it is that window |
| Terminal.ExecuteIntended | apps.js:60-64 | with the corrected folder test, `cd` reports a move exactly for a folder of the table and opens nothing; every other command behaves as written |
| Terminal.IntendedDiffersOnlyOnInheritedNames | apps.js:62 | the written and the corrected commands differ exactly on `cd` of an inherited property name |
| Terminal.CdToString | apps.js:62 | the line "cd toString" prints "Moved to toString" as written and "Folder not found" once corrected |
| Terminal.UnknownIffNotACommand | apps.js:47-86 | any first piece t that is not a command prints exactly "Unknown command: " + t and opens nothing; a command word is never unknown |
| Terminal.LsTextIsFolders | apps.js:56-57 | the text `ls` prints is the names of the table's folders, in order, two spaces apart |
| Terminal.ParseLs | apps.js:48-57 | the line "ls" is the `ls` command |
| Terminal.ParseSingleWord | apps.js:48-51 | a line that is one word without whitespace is dispatched on that word with no argument |
| Terminal.LsListsFolders | apps.js:56-57 | `ls` prints the folder names of the table and opens nothing |
| Terminal.TokensOfCommandLine | apps.js:48 | a whitespace-free word, one space and a whitespace-free argument give exactly those two pieces |
| Terminal.ParseCommandLine | apps.js:48-51 | such a line is dispatched on that word with that argument |
| Terminal.RunPlainLine | apps.js:48-51 | a line made of a plain word, one space and a plain argument runs the command selected by that word and argument |
| Terminal.DoubleSpaceIsNoArgument | apps.js:60-61 | "cd" with two spaces before the name gives the usage line, whatever the name |
| Terminal.TokensWithDoubleSpace | apps.js:48 | two spaces between word and argument put an empty piece between them |
| Terminal.SplitDoubleSpace | apps.js:48 | `split(" ")` turns a double space between two space-free words into an empty piece |
| Terminal.CommandWordsPlain | apps.js:51-85 | no command word is empty or holds whitespace |
| Terminal.FolderNamesPlain | apps.js:5-9 | no folder name is empty or holds whitespace |
| Terminal.CdFolder | apps.js:60-62 | "cd " + a folder of the table prints "Moved to " + folder |
| Terminal.OpenApp | apps.js:66-74 | "open " + app requests a window exactly when "win-" + app exists, and then prints "Opening " + app + "..." |
| Terminal.EnterBuffer | apps.js:90-97 | after `clear` the buffer is empty, its own echo included; after any other command the old buffer is kept, then "$ " + cmd + "\n", then the command's text and a newline |
| Terminal.Enter | apps.js:90-97 | the buffer becomes the echo-then-run buffer of the command's output; the shell is unchanged unless the command asks for a window, and then that window is opened |
| Terminal.EchoThenOutput | apps.js:90-97 | pressing Enter on anything but `clear` keeps the old buffer, then writes "$ " + cmd + "\n", then the command's text and a newline |
| Terminal.ClearEmptiesBuffer | apps.js:77-97 | pressing Enter on `clear` leaves an empty buffer, its echo included, and the shell unchanged |
| Terminal.NotClearPrints | apps.js:51-86 | every command other than `clear` prints a line |
| Terminal.PrintTwice | apps.js:42-45 | two lines printed in turn follow the old buffer in that order |
| Terminal.EnterKeepsInv | apps.js:90-97 | running a terminal command keeps the shell invariant |
| Desktop.EnterStandby | script.js:350-351 | every window of the page is hidden; nothing is newly shown; nothing but display changes |
| Desktop.PowerAction | script.js:390-397 | "standby" hides every window of the page; "reboot" empties the recent list and the taskbar and closes every app; any other action changes nothing; the counter, the active window and the context target are kept |
| Desktop.WindowHandler | script.js:281-293 | a close or minimise button closes or minimises its window, and does nothing when the id names no window; a title-bar press focuses its window; a taskbar or recent-apps click runs that click rule; any other event leaves the shell alone; the counter never goes down |
| Desktop.ShellHandler | script.js:227-494 | a desktop-icon double click and a main dock item open their window; a power button runs its action; a right click remembers its target and changes nothing else; a menu button runs the context action; scrolling clears the context target; a plain document click and the start button leave the shell alone; the counter never goes down |
| Desktop.Handle | script.js:253-271 | the start button only toggles the menu; a start-menu app opens its window and closes the menu; Enter runs the terminal line; only these touch the menu flag or the buffer; the counter never goes down |
| Desktop.Step | script.js:253-261 | the z-counter never decreases. A click that reaches the document closes the start menu and the context menu. A right click remembers its target. The start button toggles only the menu. A title-bar press activates its window. Scrolling clears the context target and leaves the start menu alone. A desktop-icon double click opens its window. Only Enter changes the terminal buffer |
| Desktop.MenuActsOnLastTarget | script.js:438-494 | whatever the action, a menu button runs the context action on the target of the last right click, and the menu is closed afterwards; for "close" that closes the designated window |
| Desktop.StepKeepsInv | script.js:227-308 | every user event keeps the invariant on a well-formed page |
| Desktop.HandleKeepsInv | script.js:227-271 | the handler of every event keeps the invariant |
| Desktop.ShellHandlerKeepsInv | script.js:227-494 | icons, dock items, power buttons, the context menu and scrolling keep the invariant |
| Desktop.WindowHandlerKeepsInv | script.js:281-293 | window buttons, title bars, taskbar entries and recent-apps buttons keep the invariant |
| Desktop.StandbyKeepsInv | script.js:350-358 | standby keeps the invariant and leaves no window displayed |
| Desktop.RunKeepsInv | script.js:227-494 | every session of events keeps the invariant |
| Desktop.RunCounterGrows | script.js:110-112 | the z-order counter never decreases over a session |
| Desktop.Reachable | script.js:28-36 | from page load, every reached state satisfies the invariant, and its active window is on top |

## Left out

- Fullscreen and the mobile width checks are not modelled. This covers `innerWidth <= 700` in `openWindow` and in the icon click, `mobileMode`, and the fullscreen button. They depend on measured layout. A title-bar press is modelled as always focusing: the fullscreen guard on it is dropped for the same reason.
- Dragging, mouse offsets, `getBoundingClientRect` and context-menu placement are not modelled. They are layout.
- Timers are not modelled: the splash, the black screen, the wake from standby, the 600 ms long press and the clock. Only the synchronous part of standby and reboot is modelled. A long press is the same event as a right click.
- The music player, the wallpaper loader (`localStorage`, `JSON.parse`) and the browser stub are not modelled. Each is either floating point, a foreign call or has no logic.
- `innerHTML +=` in `termPrint` parses the text as HTML. The model treats the buffer as plain text.
- Element lookups see only windows. `document.getElementById` in `open` could also find a non-window element whose id starts with "win-"; the page has none.
- Attribute selectors are built by string interpolation and no escaping is modelled. The model compares the value exactly, so an app id holding a quote or a bracket is not modelled.
- Strings are sequences of Unicode scalar values. JavaScript's UTF-16 code units are not modelled.
- `appState` is a plain object, so an app id such as "constructor" finds an inherited property. `ensureAppState` then creates no entry. The model treats `appState` as a map with no inherited keys; page app ids are ordinary names.
- The start menu's open state is a flag. Its `classList` rendering is not modelled.
- Window buttons and title bars name their window by id, and the model looks the id up. On a page with a repeated id it acts on the first window with that id, where the source acts on the button's own window; every invariant result assumes distinct ids.
- Shell.FocusWindow: the z-order counter is an unbounded integer. The source writes the JavaScript number (exact up to 2^53) into CSS `z-index`, which browsers clamp to the 32-bit range. After about 2.1 billion focus events every newly focused window would get the same z-index, and "above every earlier window" (with `ShellProperties.ActiveIsTop`, `ShellProperties.FocusOrder`, `ShellInvariants.OpenedZOk` and the last part of `Desktop.Reachable`) would no longer hold on the page. The model does not represent that clamp.
- Desktop.Step: a click on a desktop icon is not modelled. It opens a window only in the mobile layout, and is otherwise a plain click that reaches the document (`DocumentClick`).

## Findings

| source | as written | input that shows it | evidently intended | confidence | as-written member | corrected member |
|---|---|---|---|---|---|---|
| apps.js:62 | `fileSystem[parts[1]]` on a plain object is truthy for every inherited `Object.prototype` name | `cd toString` prints "Moved to toString" (so do `cd constructor`, `cd __proto__`, `cd valueOf`) | only the three folders of the table count; any other name prints "Folder not found" | high; not executed | Terminal.CdReplyAsWritten (lemma Terminal.CdAsWrittenAcceptsInheritedNames), used by Terminal.Execute | Terminal.CdReply (lemma Terminal.CdMovesIffFolder), used by Terminal.ExecuteIntended (lemma Terminal.IntendedDiffersOnlyOnInheritedNames) |

=== FILE: desktop.dfy ===
/** The desktop as a whole (script.js, apps.js): the shell state, the start
    menu and the terminal buffer, driven by user events. Every click first
    runs the handler of the element clicked and then bubbles to the two
    document-level click listeners, which close the start menu and the
    context menu; the start button stops that propagation. */
module Desktop {
  import opened Options
  import opened Seqs
  import opened Dom
  import opened Shell
  import opened ShellInvariants
  import Terminal

  /** Everything the event handlers change. */
  datatype Desktop = Desktop(shell: Shell, startOpen: bool, buffer: string)

  /** The desktop after the page has loaded. */
  function Boot(): Desktop {
    Desktop(Initial(), false, "")
  }

  /** The user events the page listens to. Window buttons and title bars
      carry the id of the window they belong to. */
  datatype Event =
    | IconDoubleClick(target: string)
    | DockMainClick(target: string)
    | StartButtonClick
    | StartAppClick(target: string)
    | PowerButtonClick(action: string)
    | CloseButtonClick(windowId: string)
    | MinimizeButtonClick(windowId: string)
    | TitlebarPress(windowId: string)
    | TaskbarEntryClick(windowId: string)
    | DockRecentButtonClick(app: string)
    | ContextMenuOpen(menuTarget: CtxTarget)
    | ContextMenuButtonClick(action: string)
    | DocumentClick
    | DocumentScroll
    | TerminalEnter(cmd: string)

  /** The events that are clicks reaching the document listeners. A double
      click is preceded by two such clicks, which are events of their own. */
  predicate ReachesDocument(e: Event) {
    || e.DockMainClick? || e.StartAppClick? || e.PowerButtonClick?
    || e.CloseButtonClick? || e.MinimizeButtonClick? || e.TaskbarEntryClick?
    || e.DockRecentButtonClick? || e.ContextMenuButtonClick? || e.DocumentClick?
  }

  /** The synchronous part of `enterStandby`: every window is hidden, and
      nothing else changes. */
  function EnterStandby(doc: Document, s: Shell): (r: Shell)
    ensures forall k :: 0 <= k < |doc| ==> !IsShown(r, doc[k].id)
    ensures forall id :: IsShown(r, id) ==> IsShown(s, id)
    ensures forall id :: id !in WindowIds(doc) ==> IsShown(r, id) == IsShown(s, id)
    ensures r.(display := s.display) == s
  {
    s.(display := s.display + map id | id in WindowIds(doc) :: NoDisplay)
  }

  /** A power button: "standby" and "reboot" act, any other action does
      nothing. */
  function PowerAction(doc: Document, s: Shell, action: string): (r: Shell)
    ensures action == "standby" ==> r == EnterStandby(doc, s)
    ensures action == "standby" ==> forall k :: 0 <= k < |doc| ==> !IsShown(r, doc[k].id)
    ensures action == "reboot" ==> r == EnterReboot(doc, s)
    ensures action == "reboot" ==> r.recent == [] && r.taskbar == [] && forall a :: a in r.appState ==> r.appState[a] == Closed
    ensures action != "standby" && action != "reboot" ==> r == s
    ensures r.zCounter == s.zCounter && r.active == s.active && r.ctx == s.ctx
  {
    if action == "standby" then EnterStandby(doc, s)
    else if action == "reboot" then EnterReboot(doc, s)
    else s
  }

  /** The events aimed at one window or one app: its close and minimise
      buttons, its title bar, its taskbar entry, its recent-apps button. */
  predicate IsWindowEvent(e: Event) {
    e.CloseButtonClick? || e.MinimizeButtonClick? || e.TitlebarPress? || e.TaskbarEntryClick? || e.DockRecentButtonClick?
  }

  /** The handlers of window events. Close and minimise act on the window
      the button belongs to; other events leave the shell alone. */
  function WindowHandler(doc: Document, s: Shell, e: Event): (r: Shell)
    ensures r.zCounter >= s.zCounter
    ensures !IsWindowEvent(e) ==> r == s
    ensures (e.CloseButtonClick? || e.MinimizeButtonClick?) && GetElementById(doc, e.windowId).None? ==> r == s
    ensures e.CloseButtonClick? && GetElementById(doc, e.windowId).Some? ==>
      r == CloseWindow(s, GetElementById(doc, e.windowId).value)
    ensures e.MinimizeButtonClick? && GetElementById(doc, e.windowId).Some? ==>
      r == MinimizeWindow(s, GetElementById(doc, e.windowId).value)
    ensures e.TitlebarPress? ==> r == FocusWindow(s, e.windowId) && r.active == Some(e.windowId)
    ensures e.TaskbarEntryClick? ==> r == TaskbarClick(doc, s, e.windowId)
    ensures e.DockRecentButtonClick? ==> r == DockRecentClick(doc, s, e.app)
  {
    match e
    case CloseButtonClick(id) =>
      (match GetElementById(doc, id)
       case None => s
       case Some(w) => CloseWindow(s, w))
    case MinimizeButtonClick(id) =>
      (match GetElementById(doc, id)
       case None => s
       case Some(w) => MinimizeWindow(s, w))
    case TitlebarPress(id) => FocusWindow(s, id)
    case TaskbarEntryClick(id) => TaskbarClick(doc, s, id)
    case DockRecentButtonClick(a) => DockRecentClick(doc, s, a)
    case _ => s
  }

  /** The handlers that change only the shell state: window events, the
      desktop icons, the dock's main apps, the power buttons, the context
      menu and scrolling. Other events leave the shell alone. */
  function ShellHandler(doc: Document, s: Shell, e: Event): (r: Shell)
    ensures r.zCounter >= s.zCounter
    ensures e.ContextMenuOpen? ==> r == s.(ctx := Some(e.menuTarget))
    ensures e.TitlebarPress? ==> r.active == Some(e.windowId)
    ensures e.ContextMenuButtonClick? ==> r == CtxAction(doc, s, e.action)
    ensures e.DocumentClick? || e.StartButtonClick? ==> r == s
    ensures IsWindowEvent(e) ==> r == WindowHandler(doc, s, e)
    ensures e.IconDoubleClick? || e.DockMainClick? ==> r == OpenWindow(doc, s, e.target)
    ensures e.PowerButtonClick? ==> r == PowerAction(doc, s, e.action)
    ensures e.DocumentScroll? ==> r == HideContextMenu(s)
  {
    if IsWindowEvent(e) then WindowHandler(doc, s, e)
    else
      match e
      case IconDoubleClick(target) => OpenWindow(doc, s, target)
      case DockMainClick(target) => OpenWindow(doc, s, target)
      case PowerButtonClick(action) => PowerAction(doc, s, action)
      case ContextMenuOpen(t) => ShowContextMenu(s, t)
      case ContextMenuButtonClick(action) => CtxAction(doc, s, action)
      case DocumentScroll => HideContextMenu(s)
      case _ => s
  }

  /** The handler of the element the event is aimed at. The start button
      toggles the start menu; a start-menu app opens its window and closes
      the menu; Enter in the terminal runs the command line. */
  function Handle(doc: Document, d: Desktop, e: Event): (r: Desktop)
    ensures r.shell.zCounter >= d.shell.zCounter
    ensures !e.TerminalEnter? ==> r.buffer == d.buffer
    ensures !e.StartButtonClick? && !e.StartAppClick? ==> r.startOpen == d.startOpen
    ensures e.ContextMenuOpen? ==> r.shell == d.shell.(ctx := Some(e.menuTarget))
    ensures e == StartButtonClick ==> r.shell == d.shell && r.startOpen == !d.startOpen
    ensures e.TitlebarPress? ==> r.shell.active == Some(e.windowId)
    ensures e.ContextMenuButtonClick? ==> r.shell == CtxAction(doc, d.shell, e.action)
    ensures e.StartAppClick? ==> r.shell == OpenWindow(doc, d.shell, e.target) && !r.startOpen
    ensures e.TerminalEnter? ==> (r.shell, r.buffer) == Terminal.Enter(doc, d.shell, d.buffer, e.cmd)
    ensures !e.StartButtonClick? && !e.StartAppClick? && !e.TerminalEnter? ==> r.shell == ShellHandler(doc, d.shell, e)
  {
    if e.StartButtonClick? then d.(startOpen := !d.startOpen)
    else if e.StartAppClick? then d.(shell := OpenWindow(doc, d.shell, e.target), startOpen := false)
    else if e.TerminalEnter? then
      var (s', out) := Terminal.Enter(doc, d.shell, d.buffer, e.cmd);
      d.(shell := s', buffer := out)
    else d.(shell := ShellHandler(doc, d.shell, e))
  }

  /** One event: the handler, then, for a click that bubbles up, the document
      listeners. */
  function Step(doc: Document, d: Desktop, e: Event): (r: Desktop)
    ensures r.shell.zCounter >= d.shell.zCounter
    ensures ReachesDocument(e) ==> r.shell.ctx.None? && !r.startOpen
    ensures e.ContextMenuOpen? ==> r.shell == d.shell.(ctx := Some(e.menuTarget)) && r.startOpen == d.startOpen
    ensures e == StartButtonClick ==> r.shell == d.shell && r.startOpen == !d.startOpen
    ensures !e.TerminalEnter? ==> r.buffer == d.buffer
    ensures e.TitlebarPress? ==> r.shell.active == Some(e.windowId) && r.startOpen == d.startOpen
    ensures e.ContextMenuButtonClick? ==> r.shell == HideContextMenu(CtxAction(doc, d.shell, e.action))
    ensures e.DocumentScroll? ==> r.shell == HideContextMenu(d.shell) && r.shell.ctx.None? && r.startOpen == d.startOpen
    ensures e.StartAppClick? ==> r.shell == HideContextMenu(OpenWindow(doc, d.shell, e.target)) && !r.startOpen
    ensures e.IconDoubleClick? ==> r.shell == OpenWindow(doc, d.shell, e.target) && r.startOpen == d.startOpen
  {
    var h := Handle(doc, d, e);
    if ReachesDocument(e) then h.(shell := HideContextMenu(h.shell), startOpen := false) else h
  }

  /** A right click (or long press) remembers its target; the next click
      anywhere forgets it, so a menu button acts on the target most recently
      shown. */
  lemma MenuActsOnLastTarget(doc: Document, d: Desktop, t: CtxTarget, action: string)
    ensures var r := Step(doc, Step(doc, d, ContextMenuOpen(t)), ContextMenuButtonClick(action));
      && r.shell.ctx.None?
      && r.shell == HideContextMenu(CtxAction(doc, d.shell.(ctx := Some(t)), action))
      && (ResolveTarget(doc, t).Some? && action == "close" ==>
            r.shell == HideContextMenu(CloseWindow(d.shell.(ctx := Some(t)), ResolveTarget(doc, t).value)))
  {
    var d1 := Step(doc, d, ContextMenuOpen(t));
    assert d1.shell == d.shell.(ctx := Some(t));
    var r := Step(doc, d1, ContextMenuButtonClick(action));
    assert r.shell == HideContextMenu(CtxAction(doc, d1.shell, action));
  }

  /** Every event keeps the shell invariant on a well-formed page. */
  lemma StepKeepsInv(doc: Document, d: Desktop, e: Event)
    requires WellFormed(doc)
    requires Inv(doc, d.shell)
    ensures Inv(doc, Step(doc, d, e).shell)
  {
    var h := Handle(doc, d, e);
    HandleKeepsInv(doc, d, e);
    if ReachesDocument(e) {
      CtxIrrelevant(doc, h.shell, None);
    }
  }

  /** Every handler keeps the invariant. */
  lemma HandleKeepsInv(doc: Document, d: Desktop, e: Event)
    requires WellFormed(doc)
    requires Inv(doc, d.shell)
    ensures Inv(doc, Handle(doc, d, e).shell)
  {
    if e.StartButtonClick? {
    } else if e.StartAppClick? {
      OpenKeepsInv(doc, d.shell, e.target);
    } else if e.TerminalEnter? {
      Terminal.EnterKeepsInv(doc, d.shell, d.buffer, e.cmd);
    } else {
      ShellHandlerKeepsInv(doc, d.shell, e);
    }
  }

  /** The handlers of shell-only events keep the invariant. */
  lemma ShellHandlerKeepsInv(doc: Document, s: Shell, e: Event)
    requires WellFormed(doc)
    requires Inv(doc, s)
    ensures Inv(doc, ShellHandler(doc, s, e))
  {
    if IsWindowEvent(e) {
      WindowHandlerKeepsInv(doc, s, e);
    } else {
      match e {
        case IconDoubleClick(target) => OpenKeepsInv(doc, s, target);
        case DockMainClick(target) => OpenKeepsInv(doc, s, target);
        case PowerButtonClick(action) =>
          if action == "standby" {
            StandbyKeepsInv(doc, s);
          } else if action == "reboot" {
            RebootKeepsInv(doc, s);
          }
        case ContextMenuOpen(t) => CtxIrrelevant(doc, s, Some(t));
        case ContextMenuButtonClick(action) => CtxActionKeepsInv(doc, s, action);
        case DocumentScroll => CtxIrrelevant(doc, s, None);
        case _ =>
      }
    }
  }

  /** The handlers of window events keep the invariant. */
  lemma WindowHandlerKeepsInv(doc: Document, s: Shell, e: Event)
    requires WellFormed(doc)
    requires Inv(doc, s)
    ensures Inv(doc, WindowHandler(doc, s, e))
  {
    match e {
      case CloseButtonClick(id) =>
        if GetElementById(doc, id).Some? {
          CloseKeepsInv(doc, s, GetElementById(doc, id).value);
        }
      case MinimizeButtonClick(id) =>
        if GetElementById(doc, id).Some? {
          MinimizeKeepsInv(doc, s, GetElementById(doc, id).value);
        }
      case TitlebarPress(id) => FocusKeepsInv(doc, s, id);
      case TaskbarEntryClick(id) => TaskbarClickKeepsInv(doc, s, id);
      case DockRecentButtonClick(a) => DockRecentClickKeepsInv(doc, s, a);
      case _ =>
    }
  }

  /** Standby keeps the invariant; in a consistent state only windows of
      the page are displayed, so afterwards none is. */
  lemma StandbyKeepsInv(doc: Document, s: Shell)
    requires Inv(doc, s)
    ensures Inv(doc, EnterStandby(doc, s))
    ensures forall v :: !IsShown(EnterStandby(doc, s), v)
  {
    var r := EnterStandby(doc, s);
    forall v | IsShown(s, v) ensures v in WindowIds(doc) {
      assert WindowOpen(doc, s, v);
      var w := GetElementById(doc, v).value;
      var k :| 0 <= k < |doc| && doc[k] == w;
    }
    forall v | v in r.taskbar ensures WindowOpen(doc, r, v) {
      assert WindowOpen(doc, s, v);
    }
  }

  /** A session: the events in order. */
  function Run(doc: Document, d: Desktop, events: seq<Event>): Desktop
    decreases |events|
  {
    if |events| == 0 then d else Run(doc, Step(doc, d, events[0]), events[1..])
  }

  /** Every state a session reaches satisfies the invariant. */
  lemma {:induction false} RunKeepsInv(doc: Document, d: Desktop, events: seq<Event>)
    requires WellFormed(doc)
    requires Inv(doc, d.shell)
    ensures Inv(doc, Run(doc, d, events).shell)
    decreases |events|
  {
    if |events| > 0 {
      StepKeepsInv(doc, d, events[0]);
      RunKeepsInv(doc, Step(doc, d, events[0]), events[1..]);
    }
  }

  /** The z-order counter never goes down over a session. */
  lemma {:induction false} RunCounterGrows(doc: Document, d: Desktop, events: seq<Event>)
    ensures Run(doc, d, events).shell.zCounter >= d.shell.zCounter
    decreases |events|
  {
    if |events| > 0 {
      RunCounterGrows(doc, Step(doc, d, events[0]), events[1..]);
    }
  }

  /** From boot, on a well-formed page, whatever the user does, every
      reached state is consistent: the recent list holds at most two distinct
      open apps, each taskbar entry is an open window, each displayed window
      is visible and on the taskbar, and the active window is on top. */
  lemma Reachable(doc: Document, events: seq<Event>)
    requires WellFormed(doc)
    ensures Inv(doc, Run(doc, Boot(), events).shell)
    ensures var s := Run(doc, Boot(), events).shell;
      s.active.Some? ==> forall v :: v in s.z && v != s.active.value ==> s.z[v] < s.z[s.active.value]
  {
    InitialInv(doc);
    RunKeepsInv(doc, Boot(), events);
  }
}

=== FILE: dom.dfy ===
/** The page's windows, seen as a fixed table. Windows are never created or
    destroyed while the shell runs, so the document is a sequence of window
    elements in document order, each with its `id` and its optional
    `data-app-id` attribute. Lookups return the first match in document
    order, as `getElementById` and `querySelector` do. */
module Dom {
  import opened Options
  import opened Seqs

  /** A JavaScript value that is a string, `null` or `undefined`; the
      context-menu targets carry ids of this kind. */
  datatype JsStr = Undefined | Null | Str(s: string)

  /** JavaScript truthiness of such a value: only a non-empty string. */
  predicate Truthy(v: JsStr) {
    v.Str? && v.s != ""
  }

  /** The text a template literal `${v}` produces. */
  function Interpolate(v: JsStr): (t: string)
    ensures v.Str? ==> t == v.s
  {
    match v
    case Undefined => "undefined"
    case Null => "null"
    case Str(s) => s
  }

  /** A `.window` element: its `id` and its `data-app-id` attribute, if any. */
  datatype Window = Window(id: string, appAttr: Option<string>)

  type Document = seq<Window>

  /** `getAppIdFromWindow`: `win.dataset.appId || null`; an empty attribute
      counts as no app. */
  function AppOf(w: Window): (r: Option<string>)
    ensures r.Some? <==> w.appAttr.Some? && w.appAttr.value != ""
    ensures r.Some? ==> r.value == w.appAttr.value
  {
    match w.appAttr
    case Some(a) => if a != "" then Some(a) else None
    case None => None
  }

  /** `document.getElementById(id)` restricted to windows: the first window
      with that id; the empty id matches nothing. */
  function GetElementById(doc: Document, id: string): (r: Option<Window>)
    ensures r.Some? ==> r.value in doc && r.value.id == id && id != ""
    ensures r.None? <==> id == "" || forall k :: 0 <= k < |doc| ==> doc[k].id != id
  {
    if id == "" || |doc| == 0 then None
    else if doc[0].id == id then Some(doc[0])
    else GetElementById(doc[1..], id)
  }

  /** `getWindowByAppId(key)`: the first window whose `data-app-id`
      attribute equals the text of the selector. */
  function GetWindowByAppId(doc: Document, key: string): (r: Option<Window>)
    ensures r.Some? ==> r.value in doc && r.value.appAttr == Some(key)
    ensures r.None? <==> forall k :: 0 <= k < |doc| ==> doc[k].appAttr != Some(key)
  {
    if |doc| == 0 then None
    else if doc[0].appAttr == Some(key) then Some(doc[0])
    else GetWindowByAppId(doc[1..], key)
  }

  /** The page the shell relies on: window ids are distinct and non-empty,
      and no two windows declare the same app. */
  predicate WellFormed(doc: Document) {
    && (forall k :: 0 <= k < |doc| ==> doc[k].id != "")
    && (forall i, j :: 0 <= i < j < |doc| ==> doc[i].id != doc[j].id)
    && (forall i, j :: 0 <= i < j < |doc| && doc[i].appAttr.Some? ==> doc[i].appAttr != doc[j].appAttr)
  }

  /** On a well-formed page, looking a window up by its own id finds it. */
  lemma {:induction false} ByIdFindsWindow(doc: Document, w: Window)
    requires WellFormed(doc)
    requires w in doc
    ensures GetElementById(doc, w.id) == Some(w)
  {
    if doc[0] != w {
      assert doc[0].id != w.id by {
        var k :| 0 <= k < |doc| && doc[k] == w;
        assert k > 0;
      }
      assert w in doc[1..] by {
        var k :| 0 <= k < |doc| && doc[k] == w;
        assert doc[1..][k - 1] == w;
      }
      assert WellFormed(doc[1..]) by {
        forall i, j | 0 <= i < j < |doc[1..]|
          ensures doc[1..][i].id != doc[1..][j].id
          ensures doc[1..][i].appAttr.Some? ==> doc[1..][i].appAttr != doc[1..][j].appAttr
        {
          assert doc[1..][i] == doc[i + 1] && doc[1..][j] == doc[j + 1];
        }
      }
      ByIdFindsWindow(doc[1..], w);
    }
  }

  /** On a well-formed page, looking a window up by its app finds it. */
  lemma {:induction false} ByAppFindsWindow(doc: Document, w: Window)
    requires WellFormed(doc)
    requires w in doc && w.appAttr.Some?
    ensures GetWindowByAppId(doc, w.appAttr.value) == Some(w)
  {
    if doc[0] != w {
      assert doc[0].appAttr != w.appAttr by {
        var k :| 0 <= k < |doc| && doc[k] == w;
        assert k > 0;
        assert doc[0].id != doc[k].id;
      }
      assert w in doc[1..] by {
        var k :| 0 <= k < |doc| && doc[k] == w;
        assert doc[1..][k - 1] == w;
      }
      assert WellFormed(doc[1..]) by {
        forall i, j | 0 <= i < j < |doc[1..]|
          ensures doc[1..][i].id != doc[1..][j].id
          ensures doc[1..][i].appAttr.Some? ==> doc[1..][i].appAttr != doc[1..][j].appAttr
        {
          assert doc[1..][i] == doc[i + 1] && doc[1..][j] == doc[j + 1];
        }
      }
      ByAppFindsWindow(doc[1..], w);
    }
  }

  /** Two windows of a well-formed page that are both listed are equal as
      soon as they share an id, or share an app. */
  lemma SameIdSameWindow(doc: Document, v: Window, w: Window)
    requires WellFormed(doc)
    requires v in doc && w in doc
    ensures v.id == w.id ==> v == w
    ensures AppOf(v).Some? && AppOf(v) == AppOf(w) ==> v == w
  {
    var i :| 0 <= i < |doc| && doc[i] == v;
    var j :| 0 <= j < |doc| && doc[j] == w;
    if i < j {
      assert doc[i].id != doc[j].id;
    } else if j < i {
      assert doc[j].id != doc[i].id;
    }
  }
}

=== FILE: file_manager.dfy ===
/** The file manager's fixed folder table and its listing (apps.js). */
module FileManager {
  import opened Options
  import opened Seqs

  /** `fileSystem`: folder name and entries, in the order the object literal
      declares its keys (the order JavaScript enumerates them in). */
  const FileSystem: seq<(string, seq<string>)> := [
    ("home", ["notes.txt", "todo.txt", "image.png"]),
    ("documents", ["project.docx", "resume.pdf"]),
    ("music", ["demo-track.mp3"])
  ]

  /** The folder names, in table order. */
  function Folders(): (names: seq<string>)
    ensures |names| == |FileSystem|
    ensures forall k :: 0 <= k < |names| ==> names[k] == FileSystem[k].0
  {
    seq(|FileSystem|, k requires 0 <= k < |FileSystem| => FileSystem[k].0)
  }

  /** The entries of the first folder of `table` named `name`, if any. */
  function Lookup(table: seq<(string, seq<string>)>, name: string): (r: Option<seq<string>>)
    ensures r.None? <==> forall k :: 0 <= k < |table| ==> table[k].0 != name
    ensures r.Some? ==> exists k :: 0 <= k < |table| && table[k] == (name, r.value)
  {
    if |table| == 0 then None
    else if table[0].0 == name then Some(table[0].1)
    else
      var r := Lookup(table[1..], name);
      assert forall k :: 0 <= k < |table[1..]| ==> table[1..][k] == table[k + 1];
      r
  }

  /** What the file pane shows: the path line and one item per entry. */
  datatype Listing = Listing(path: string, items: seq<string>)

  /** What `loadFolder` leaves behind: the pane as shown, and whether the
      call ended by throwing. */
  datatype Load = Load(pane: Listing, threw: bool)

  /** `loadFolder(path)`: the path line is set and the list emptied first;
      then a folder of the table is listed entry by entry, in table order.
      For any other name `fileSystem[path].forEach` throws a `TypeError`
      after those two steps, so the pane shows the name over an empty list.
      (Inherited object properties such as `toString` have no `forEach`
      either, and throw in the same way.) */
  function LoadFolder(path: string): (r: Load)
    ensures r.pane.path == path
    ensures r.threw <==> path !in Folders()
    ensures r.threw ==> r.pane.items == []
    ensures forall k :: 0 <= k < |FileSystem| && FileSystem[k].0 == path ==>
      r == Load(Listing(path, FileSystem[k].1), false)
  {
    FolderNamesDistinct();
    match Lookup(FileSystem, path)
    case None => Load(Listing(path, []), true)
    case Some(items) => Load(Listing(path, items), false)
  }

  /** The folder names, spelled out. */
  lemma FoldersInOrder()
    ensures Folders() == ["home", "documents", "music"]
  {
  }

  /** No folder name appears twice. */
  lemma FolderNamesDistinct()
    ensures NoDups(Folders())
  {
    var f := Folders();
    assert f == ["home", "documents", "music"];
  }

  /** At start-up the file pane shows the three entries of "home". */
  lemma StartupListing()
    ensures LoadFolder("home") == Load(Listing("home", ["notes.txt", "todo.txt", "image.png"]), false)
  {
  }
}

=== FILE: options.dfy ===
/** A value that may be missing: a failed lookup, an unset field. */
module Options {
  datatype Option<+T> = None | Some(value: T)
}

=== FILE: recent_apps.dfy ===
/** The dock's "recent apps" list: a most-recently-used list of app ids,
    most recent first, holding at most two entries. */
module RecentApps {
  import opened Seqs

  const Capacity: nat := 2

  /** A list the dock can be in: bounded and without repeats. */
  predicate Valid(recent: seq<string>) {
    |recent| <= Capacity && NoDups(recent)
  }

  /** List part of `addRecentApp`: drop the id from where it was, put it in
      front, and if the list has grown past the capacity pop one entry off
      the tail. */
  function Touch(recent: seq<string>, a: string): (r: seq<string>)
    ensures |r| > 0 && r[0] == a
    ensures r[1..] <= RemoveFirst(recent, a)
    ensures |recent| <= Capacity ==> |r| <= Capacity
    ensures |recent| < Capacity ==> r == [a] + RemoveFirst(recent, a)
  {
    var moved := [a] + RemoveFirst(recent, a);
    if |moved| > Capacity then moved[..|moved| - 1] else moved
  }

  /** Touching keeps the list bounded and free of repeats. */
  lemma TouchKeepsValid(recent: seq<string>, a: string)
    requires Valid(recent)
    ensures Valid(Touch(recent, a))
  {
    var rest := RemoveFirst(recent, a);
    RemoveFirstNoDups(recent, a);
    var r := Touch(recent, a);
    forall i, j | 0 <= i < j < |r| ensures r[i] != r[j] {
      assert r[j] == rest[j - 1];
    }
  }

  /** Nothing but the touched id can enter the list. */
  lemma TouchOnlyAdds(recent: seq<string>, a: string, k: nat)
    requires k < |Touch(recent, a)|
    ensures Touch(recent, a)[k] == a || Touch(recent, a)[k] in recent
  {
    var r := Touch(recent, a);
    var rest := RemoveFirst(recent, a);
    if k > 0 {
      assert r[k] == rest[k - 1];
      assert rest[k - 1] in multiset(rest);
    }
  }

  /** Re-touching an id already in a full-or-smaller list only reorders it:
      same length, same elements. */
  lemma TouchPresentOnlyReorders(recent: seq<string>, a: string)
    requires |recent| <= Capacity
    requires a in recent
    ensures |Touch(recent, a)| == |recent|
    ensures multiset(Touch(recent, a)) == multiset(recent)
  {
    var moved := [a] + RemoveFirst(recent, a);
    assert multiset(moved) == multiset{a} + (multiset(recent) - multiset{a});
  }

  /** Touching an id twice in a row is the same as touching it once. */
  lemma TouchIdempotent(recent: seq<string>, a: string)
    requires |recent| <= Capacity
    ensures Touch(Touch(recent, a), a) == Touch(recent, a)
  {
    var r := Touch(recent, a);
    assert IndexOf(r, a) == 0;
    assert RemoveFirst(r, a) == r[1..];
  }

  /** Touching an id other than the current head leaves exactly
      [new id, old head]. */
  lemma TouchOverHead(recent: seq<string>, a: string, b: string)
    requires 0 < |recent| <= Capacity && recent[0] == a
    requires b != a
    ensures Touch(recent, b) == [b, a]
  {
    var rest := RemoveFirst(recent, b);
    if b in recent {
      assert IndexOf(recent, b) > 0;
    }
    assert |rest| > 0 && rest[0] == a;
  }

  /** Three distinct ids touched in order leave exactly the last two, newest
      first: the oldest one falls off the tail, whatever the list held before. */
  lemma ThreeDistinctEvictsFirst(recent: seq<string>, a: string, b: string, c: string)
    requires |recent| <= Capacity
    requires a != b && b != c && a != c
    ensures Touch(Touch(Touch(recent, a), b), c) == [c, b]
  {
    TouchOverHead(Touch(recent, a), a, b);
    TouchOverHead([b, a], b, c);
  }
}

=== FILE: seqs.dfy ===
/** Generic helpers over sequences: first-occurrence search
    (JavaScript's `indexOf`) and the `indexOf` + `splice(i, 1)` removal idiom
    the shell uses on its arrays. */
module Seqs {

  /** No element occurs twice. */
  predicate NoDups<T(==)>(s: seq<T>) {
    forall i, j :: 0 <= i < j < |s| ==> s[i] != s[j]
  }

  /** Number of occurrences of `x` in `s`. */
  function Count<T(==)>(s: seq<T>, x: T): (n: nat)
    ensures n <= |s|
    ensures n == 0 <==> x !in s
  {
    if |s| == 0 then 0
    else (if s[0] == x then 1 else 0) + Count(s[1..], x)
  }

  /** A sequence without duplicates holds each of its elements exactly once. */
  lemma {:induction false} NoDupsCountOne<T>(s: seq<T>, x: T)
    requires NoDups(s)
    requires x in s
    ensures Count(s, x) == 1
  {
    if s[0] == x {
      assert x !in s[1..] by {
        forall k | 0 <= k < |s[1..]| ensures s[1..][k] != x {
          assert s[1..][k] == s[k + 1];
        }
      }
    } else {
      assert x in s[1..] by {
        var k :| 0 <= k < |s| && s[k] == x;
        assert s[1..][k - 1] == x;
      }
      NoDupsCountOne(s[1..], x);
    }
  }

  /** Position of the first occurrence (JavaScript `Array.prototype.indexOf`,
      which the source compares against -1 before using). */
  function IndexOf<T(==)>(s: seq<T>, x: T): (i: nat)
    requires x in s
    ensures i < |s| && s[i] == x
    ensures x !in s[..i]
  {
    if s[0] == x then 0
    else
      assert x in s[1..] by {
        var k :| 0 <= k < |s| && s[k] == x;
        assert s[1..][k - 1] == x;
      }
      1 + IndexOf(s[1..], x)
  }

  /** `const i = s.indexOf(x); if (i !== -1) s.splice(i, 1);` */
  function RemoveFirst<T(==)>(s: seq<T>, x: T): (r: seq<T>)
    ensures x !in s ==> r == s
    ensures x in s ==> |r| == |s| - 1
    ensures multiset(r) == multiset(s) - multiset{x}
  {
    if x !in s then s
    else
      var i := IndexOf(s, x);
      assert s == s[..i] + [x] + s[i + 1..];
      assert multiset(s) == multiset(s[..i]) + multiset{x} + multiset(s[i + 1..]);
      s[..i] + s[i + 1..]
  }

  /** Removing from a duplicate-free sequence keeps it duplicate-free and
      leaves no copy of the removed element behind. */
  lemma RemoveFirstNoDups<T>(s: seq<T>, x: T)
    requires NoDups(s)
    ensures NoDups(RemoveFirst(s, x))
    ensures x !in RemoveFirst(s, x)
  {
    if x in s {
      var i := IndexOf(s, x);
      var r := s[..i] + s[i + 1..];
      assert forall k :: 0 <= k < |r| ==> r[k] == (if k < i then s[k] else s[k + 1]);
    }
  }

  /** Every occurrence of `x` dropped, order of the rest kept: the reference
      definition against which `RemoveFirst` is compared. */
  function Without<T(==)>(s: seq<T>, x: T): (r: seq<T>)
    ensures x !in r
    ensures forall k :: 0 <= k < |r| ==> r[k] in s
    ensures forall k :: 0 <= k < |s| && s[k] != x ==> s[k] in r
  {
    if |s| == 0 then []
    else if s[0] == x then Without(s[1..], x)
    else [s[0]] + Without(s[1..], x)
  }

  /** On a duplicate-free sequence, the first-occurrence removal used by the
      source is exactly "drop x, keep everything else in order". */
  lemma RemoveFirstIsWithout<T>(s: seq<T>, x: T)
    requires NoDups(s)
    ensures RemoveFirst(s, x) == Without(s, x)
  {
    if x !in s {
      WithoutAbsent(s, x);
    } else {
      var i := IndexOf(s, x);
      var tail := s[i + 1..];
      assert x !in tail by {
        forall k | 0 <= k < |tail| ensures tail[k] != x {
          assert tail[k] == s[i + 1 + k];
        }
      }
      assert s == s[..i] + ([x] + s[i + 1..]);
      WithoutAppend(s[..i], [x] + s[i + 1..], x);
      WithoutAppend([x], s[i + 1..], x);
      WithoutAbsent(s[..i], x);
      WithoutAbsent(s[i + 1..], x);
    }
  }

  lemma {:induction false} WithoutAppend<T>(a: seq<T>, b: seq<T>, x: T)
    ensures Without(a + b, x) == Without(a, x) + Without(b, x)
  {
    if |a| > 0 {
      assert (a + b)[1..] == a[1..] + b;
      WithoutAppend(a[1..], b, x);
    } else {
      assert a + b == b;
    }
  }

  lemma {:induction false} WithoutAbsent<T>(s: seq<T>, x: T)
    requires x !in s
    ensures Without(s, x) == s
  {
    if |s| > 0 {
      assert x !in s[1..];
      WithoutAbsent(s[1..], x);
    }
  }
}

=== FILE: shell.dfy ===
/** The window-lifecycle state of the desktop shell (script.js): which apps
    are open or minimised, the dock's recent-apps list, which windows have a
    taskbar entry, each window's `style.display`, the z-order counter, the
    active window and the context-menu target. Every operation of the
    source is a pure transition on this record; the page itself is the fixed
    window table of module Dom. */
module Shell {
  import opened Options
  import opened Seqs
  import opened Dom
  import RecentApps
  import Text

  /** `appState[appId]`: `{ open, hidden }`. */
  datatype AppStatus = AppStatus(open: bool, hidden: bool)

  /** The entry `ensureAppState` creates, and the state `closeWindow` and a
      reboot leave behind. */
  const Closed := AppStatus(false, false)

  /** A window's inline `style.display` once the shell has set it: "flex"
      or "none". A window whose display was never set (the empty string) has
      no entry in the map. */
  datatype Display = Flex | NoDisplay

  /** Which surface a context menu was opened on. */
  datatype SourceKind = DesktopIcon | DockMain | DockRecent | TaskbarEntry | WindowChrome

  /** `ctxTarget`: `{ type, appId, windowId }`. */
  datatype CtxTarget = CtxTarget(kind: SourceKind, appId: JsStr, windowId: JsStr)

  /** The first value `zIndexCounter` holds. */
  const InitialZ := 500

  datatype Shell = Shell(
    appState: map<string, AppStatus>,
    recent: seq<string>,            // recentApps, most recent first
    taskbar: seq<string>,           // window ids of the taskbar entries, in insertion order
    display: map<string, Display>,  // window id -> style.display
    z: map<string, int>,            // window id -> style.zIndex
    zCounter: int,                  // zIndexCounter
    active: Option<string>,         // the window carrying the "active" class
    ctx: Option<CtxTarget>)         // ctxTarget

  function Initial(): (r: Shell)
    ensures r.appState == map[] && r.recent == [] && r.taskbar == []
    ensures forall id :: !IsShown(r, id)
    ensures r.zCounter == InitialZ && r.z == map[]
    ensures r.active.None? && r.ctx.None?
  {
    Shell(map[], [], [], map[], map[], InitialZ, None, None)
  }

  /* ---------------------------------------------------------------
     App state and recent apps
     --------------------------------------------------------------- */

  /** `ensureAppState`: an app seen for the first time gets a closed entry;
      an existing entry is left alone. */
  function EnsureAppState(s: Shell, a: string): (r: Shell)
    ensures a in r.appState
    ensures a in s.appState ==> r == s
    ensures a !in s.appState ==> r.appState[a] == Closed
    ensures forall b :: b != a ==> (b in r.appState <==> b in s.appState)
    ensures forall b :: b != a && b in s.appState ==> r.appState[b] == s.appState[b]
    ensures r.(appState := s.appState) == s
  {
    if a in s.appState then s else s.(appState := s.appState[a := Closed])
  }

  /** The two assignments `appState[appId].open = ...; appState[appId].hidden = ...`
      that follow `ensureAppState`. */
  function SetStatus(s: Shell, a: string, st: AppStatus): Shell {
    s.(appState := s.appState[a := st])
  }

  /** `addRecentApp`: the app gets a state entry and moves to the front of
      the recent list; nothing else changes. */
  function AddRecentApp(s: Shell, a: string): (r: Shell)
    ensures a in r.appState
    ensures a in s.appState ==> r.appState == s.appState
    ensures a !in s.appState ==> r.appState[a] == Closed
    ensures |r.recent| > 0 && r.recent[0] == a
    ensures r.recent == RecentApps.Touch(s.recent, a)
    ensures RecentApps.Valid(s.recent) ==> RecentApps.Valid(r.recent)
    ensures r.(appState := s.appState, recent := s.recent) == s
  {
    assert RecentApps.Valid(s.recent) ==> RecentApps.Valid(RecentApps.Touch(s.recent, a)) by {
      if RecentApps.Valid(s.recent) {
        RecentApps.TouchKeepsValid(s.recent, a);
      }
    }
    var s1 := EnsureAppState(s, a);
    s1.(recent := RecentApps.Touch(s1.recent, a))
  }

  /** `removeFromRecent`: the app leaves the recent list (if it was there)
      and the others keep their order; nothing else changes. */
  function RemoveFromRecent(s: Shell, a: string): (r: Shell)
    ensures a !in s.recent ==> r == s
    ensures NoDups(s.recent) ==> a !in r.recent && NoDups(r.recent)
    ensures NoDups(s.recent) ==> r.recent == Without(s.recent, a)
    ensures multiset(r.recent) == multiset(s.recent) - multiset{a}
    ensures r.(recent := s.recent) == s
  {
    assert NoDups(s.recent) ==> RemoveFirst(s.recent, a) == Without(s.recent, a) && NoDups(RemoveFirst(s.recent, a)) by {
      if NoDups(s.recent) {
        RemoveFirstNoDups(s.recent, a);
        RemoveFirstIsWithout(s.recent, a);
      }
    }
    s.(recent := RemoveFirst(s.recent, a))
  }

  /* ---------------------------------------------------------------
     Focus and taskbar
     --------------------------------------------------------------- */

  /** `focusWindow`: the counter goes up by one, the window gets the new
      value as its z-index, and it becomes the one active window. */
  function FocusWindow(s: Shell, id: string): (r: Shell)
    ensures r.zCounter == s.zCounter + 1
    ensures id in r.z && r.z[id] == r.zCounter
    ensures forall v :: v in s.z && s.z[v] <= s.zCounter ==> s.z[v] < r.z[id]
    ensures forall v :: v != id ==> (v in r.z <==> v in s.z)
    ensures forall v :: v != id && v in s.z ==> r.z[v] == s.z[v]
    ensures r.active == Some(id)
    ensures r.(z := s.z, zCounter := s.zCounter, active := s.active) == s
  {
    var n := s.zCounter + 1;
    s.(zCounter := n, z := s.z[id := n], active := Some(id))
  }

  /** The text of a taskbar entry: the window's app, or else its id with
      the first "win-" taken out. */
  function TaskbarLabel(w: Window): (t: string)
    ensures AppOf(w).Some? ==> t == AppOf(w).value
    ensures AppOf(w).None? ==> forall i: nat :: Text.FirstAt(w.id, "win-", i) ==> t == w.id[..i] + w.id[i + 4..]
    ensures AppOf(w).None? && (forall i: nat :: !Text.OccursAt(w.id, "win-", i)) ==> t == w.id
  {
    match AppOf(w)
    case Some(a) => a
    case None => Text.ReplaceFirst(w.id, "win-", "")
  }

  /** `addToTaskbar`: a window that already has an entry keeps its single
      entry; otherwise one entry is appended at the end. The source reads
      the window's app from the element, so the window must exist. */
  function AddToTaskbar(doc: Document, s: Shell, id: string): (r: Shell)
    requires GetElementById(doc, id).Some?
    ensures id in r.taskbar
    ensures id in s.taskbar ==> r == s
    ensures id !in s.taskbar ==> r.taskbar == s.taskbar + [id]
    ensures s.taskbar <= r.taskbar && |r.taskbar| <= |s.taskbar| + 1
    ensures NoDups(s.taskbar) ==> NoDups(r.taskbar) && Count(r.taskbar, id) == 1
    ensures r.(taskbar := s.taskbar) == s
  {
    var r := if id in s.taskbar then s else s.(taskbar := s.taskbar + [id]);
    assert NoDups(s.taskbar) ==> NoDups(r.taskbar) && Count(r.taskbar, id) == 1 by {
      if NoDups(s.taskbar) {
        assert NoDups(r.taskbar);
        NoDupsCountOne(r.taskbar, id);
      }
    }
    r
  }

  /** `removeFromTaskbar`: the window's entry, if any, disappears; the other
      entries keep their order. */
  function RemoveFromTaskbar(s: Shell, id: string): (r: Shell)
    ensures id !in s.taskbar ==> r == s
    ensures NoDups(s.taskbar) ==> id !in r.taskbar && NoDups(r.taskbar)
    ensures NoDups(s.taskbar) ==> r.taskbar == Without(s.taskbar, id)
    ensures r.(taskbar := s.taskbar) == s
  {
    assert NoDups(s.taskbar) ==> RemoveFirst(s.taskbar, id) == Without(s.taskbar, id) && NoDups(RemoveFirst(s.taskbar, id)) by {
      if NoDups(s.taskbar) {
        RemoveFirstNoDups(s.taskbar, id);
        RemoveFirstIsWithout(s.taskbar, id);
      }
    }
    s.(taskbar := RemoveFirst(s.taskbar, id))
  }

  /* ---------------------------------------------------------------
     Window lifecycle
     --------------------------------------------------------------- */

  /** The app part of `openWindow`: the window's app (if any) becomes open
      and visible and moves to the front of the recent list. */
  function MarkOpened(s: Shell, w: Window): (r: Shell)
    ensures match AppOf(w)
      case None => r == s
      case Some(a) =>
        && a in r.appState && r.appState[a] == AppStatus(true, false)
        && r.recent == RecentApps.Touch(s.recent, a)
        && (forall b :: b != a ==> (b in r.appState <==> b in s.appState))
        && (forall b :: b != a && b in s.appState ==> r.appState[b] == s.appState[b])
    ensures r.(appState := s.appState, recent := s.recent) == s
  {
    match AppOf(w)
    case None => s
    case Some(a) => AddRecentApp(SetStatus(s, a, AppStatus(true, false)), a)
  }

  /** `openWindow` on a window the page has: the window is displayed and
      focused, its app is open and visible and heads the recent list, and
      it has exactly one taskbar entry; no other window's display or z-index
      changes. */
  function OpenExisting(doc: Document, s: Shell, w: Window): (r: Shell)
    requires GetElementById(doc, w.id) == Some(w)
    ensures w.id in r.display && r.display[w.id] == Flex
    ensures r.zCounter == s.zCounter + 1 && w.id in r.z && r.z[w.id] == r.zCounter
    ensures r.active == Some(w.id) && r.ctx == s.ctx
    ensures w.id in r.taskbar && s.taskbar <= r.taskbar && |r.taskbar| <= |s.taskbar| + 1
    ensures w.id in s.taskbar ==> r.taskbar == s.taskbar
    ensures NoDups(s.taskbar) ==> Count(r.taskbar, w.id) == 1
    ensures r.(display := s.display, z := s.z, zCounter := s.zCounter, active := s.active, taskbar := s.taskbar)
            == MarkOpened(s, w)
    ensures forall v :: v != w.id ==> (v in r.display <==> v in s.display)
    ensures forall v :: v != w.id && v in s.display ==> r.display[v] == s.display[v]
    ensures forall v :: v != w.id ==> (v in r.z <==> v in s.z)
    ensures forall v :: v != w.id && v in s.z ==> r.z[v] == s.z[v]
  {
    var s1 := MarkOpened(s, w);
    var s2 := s1.(display := s1.display[w.id := Flex]);
    var s3 := FocusWindow(s2, w.id);
    AddToTaskbar(doc, s3, w.id)
  }

  /** `openWindow(id)`: an unknown id changes nothing. Otherwise the window is
      displayed and focused, its app is open and visible and heads the
      recent list, and it has exactly one taskbar entry. */
  function OpenWindow(doc: Document, s: Shell, id: string): (r: Shell)
    ensures GetElementById(doc, id).None? ==> r == s
    ensures GetElementById(doc, id).Some? ==>
      && id in r.display && r.display[id] == Flex
      && r.zCounter == s.zCounter + 1 && id in r.z && r.z[id] == r.zCounter
      && r.active == Some(id)
      && id in r.taskbar && s.taskbar <= r.taskbar && |r.taskbar| <= |s.taskbar| + 1
      && (id in s.taskbar ==> r.taskbar == s.taskbar)
      && (NoDups(s.taskbar) ==> Count(r.taskbar, id) == 1)
      && r.ctx == s.ctx
    ensures GetElementById(doc, id).Some? ==>
      match AppOf(GetElementById(doc, id).value)
      case None => r.appState == s.appState && r.recent == s.recent
      case Some(a) =>
        && a in r.appState && r.appState[a] == AppStatus(true, false)
        && |r.recent| > 0 && r.recent[0] == a
        && r.recent == RecentApps.Touch(s.recent, a)
        && (forall b :: b != a ==> (b in r.appState <==> b in s.appState))
        && (forall b :: b != a && b in s.appState ==> r.appState[b] == s.appState[b])
    ensures forall v :: v != id ==> (v in r.display <==> v in s.display)
    ensures forall v :: v != id && v in s.display ==> r.display[v] == s.display[v]
    ensures forall v :: v != id ==> (v in r.z <==> v in s.z)
    ensures forall v :: v != id && v in s.z ==> r.z[v] == s.z[v]
  {
    match GetElementById(doc, id)
    case None => s
    case Some(w) =>
      var r := OpenExisting(doc, s, w);
      assert r.appState == MarkOpened(s, w).appState && r.recent == MarkOpened(s, w).recent;
      r
  }

  /** `closeWindow(win)`: the window is no longer displayed, its app is
      closed and unhidden and leaves the recent list, and its taskbar entry
      is removed. Focus and z-order are not touched. */
  function CloseWindow(s: Shell, w: Window): (r: Shell)
    ensures w.id in r.display && r.display[w.id] == NoDisplay
    ensures NoDups(s.taskbar) ==> w.id !in r.taskbar && r.taskbar == Without(s.taskbar, w.id)
    ensures match AppOf(w)
      case None => r.appState == s.appState && r.recent == s.recent
      case Some(a) =>
        && a in r.appState && r.appState[a] == Closed
        && (NoDups(s.recent) ==> a !in r.recent && r.recent == Without(s.recent, a))
        && (forall b :: b != a ==> (b in r.appState <==> b in s.appState))
        && (forall b :: b != a && b in s.appState ==> r.appState[b] == s.appState[b])
    ensures r.z == s.z && r.zCounter == s.zCounter && r.active == s.active && r.ctx == s.ctx
    ensures forall v :: v != w.id ==> (v in r.display <==> v in s.display)
    ensures forall v :: v != w.id && v in s.display ==> r.display[v] == s.display[v]
  {
    var s1 := s.(display := s.display[w.id := NoDisplay]);
    var s2 := match AppOf(w)
      case None => s1
      case Some(a) => RemoveFromRecent(SetStatus(s1, a, Closed), a);
    RemoveFromTaskbar(s2, w.id)
  }

  /** `minimizeWindow(win)`: the window is no longer displayed, its app is
      open and hidden and heads the recent list. The taskbar is left as it
      is: minimising a closed window marks its app open without giving it a
      taskbar entry. */
  function MinimizeWindow(s: Shell, w: Window): (r: Shell)
    ensures w.id in r.display && r.display[w.id] == NoDisplay
    ensures r.taskbar == s.taskbar
    ensures match AppOf(w)
      case None => r.appState == s.appState && r.recent == s.recent
      case Some(a) =>
        && a in r.appState && r.appState[a] == AppStatus(true, true)
        && |r.recent| > 0 && r.recent[0] == a
        && r.recent == RecentApps.Touch(s.recent, a)
        && (forall b :: b != a ==> (b in r.appState <==> b in s.appState))
        && (forall b :: b != a && b in s.appState ==> r.appState[b] == s.appState[b])
    ensures r.z == s.z && r.zCounter == s.zCounter && r.active == s.active && r.ctx == s.ctx
    ensures forall v :: v != w.id ==> (v in r.display <==> v in s.display)
    ensures forall v :: v != w.id && v in s.display ==> r.display[v] == s.display[v]
  {
    var s1 := s.(display := s.display[w.id := NoDisplay]);
    match AppOf(w)
    case None => s1
    case Some(a) => AddRecentApp(SetStatus(s1, a, AppStatus(true, true)), a)
  }

  /** A window whose display is still unset or "none" counts as not shown. */
  predicate IsShown(s: Shell, id: string) {
    id in s.display && s.display[id] == Flex
  }

  /** Click on a taskbar entry: a window that is not shown is opened, a shown
      one is only focused; a window that no longer exists is ignored. */
  function TaskbarClick(doc: Document, s: Shell, id: string): (r: Shell)
    ensures GetElementById(doc, id).None? ==> r == s
    ensures GetElementById(doc, id).Some? && !IsShown(s, id) ==> r == OpenWindow(doc, s, id)
    ensures GetElementById(doc, id).Some? && IsShown(s, id) ==>
      r == FocusWindow(s, id) && r.taskbar == s.taskbar && r.appState == s.appState
  {
    match GetElementById(doc, id)
    case None => s
    case Some(w) => if IsShown(s, id) then FocusWindow(s, id) else OpenWindow(doc, s, id)
  }

  /** Click on a recent-apps button: the app's window, if the page has one,
      is opened. */
  function DockRecentClick(doc: Document, s: Shell, a: string): (r: Shell)
    ensures GetWindowByAppId(doc, a).None? ==> r == s
    ensures GetWindowByAppId(doc, a).Some? ==> r == OpenWindow(doc, s, GetWindowByAppId(doc, a).value.id)
    ensures WellFormed(doc) ==> forall k :: 0 <= k < |doc| && AppOf(doc[k]) == Some(a) ==>
      |r.recent| > 0 && r.recent[0] == a && a in r.appState && r.appState[a] == AppStatus(true, false)
    ensures r.zCounter >= s.zCounter
  {
    assert WellFormed(doc) ==> forall k :: 0 <= k < |doc| && AppOf(doc[k]) == Some(a) ==>
        GetWindowByAppId(doc, a) == Some(doc[k]) && GetElementById(doc, doc[k].id) == Some(doc[k]) by {
      if WellFormed(doc) {
        forall k | 0 <= k < |doc| && AppOf(doc[k]) == Some(a)
          ensures GetWindowByAppId(doc, a) == Some(doc[k]) && GetElementById(doc, doc[k].id) == Some(doc[k])
        {
          ByAppFindsWindow(doc, doc[k]);
          ByIdFindsWindow(doc, doc[k]);
        }
      }
    }
    match GetWindowByAppId(doc, a)
    case None => s
    case Some(w) => OpenWindow(doc, s, w.id)
  }

  /** A taskbar entry: its window, its text (also its `data-app-id`), and
      the context-menu target attached to it. */
  datatype TaskbarItem = TaskbarItem(windowId: string, text: string, target: CtxTarget)

  /** The taskbar as drawn: one entry per window id, in insertion order.
      Each entry was made by `addToTaskbar` on an existing window, whose
      label it shows. */
  function RenderTaskbar(doc: Document, s: Shell): (v: seq<TaskbarItem>)
    requires forall k :: 0 <= k < |s.taskbar| ==> GetElementById(doc, s.taskbar[k]).Some?
    ensures |v| == |s.taskbar|
    ensures forall k :: 0 <= k < |v| ==>
      var w := GetElementById(doc, s.taskbar[k]).value;
      && v[k].windowId == s.taskbar[k]
      && v[k].text == TaskbarLabel(w)
      && (AppOf(w).Some? ==> v[k].text == AppOf(w).value)
      && (AppOf(w).None? && Text.OccursAt(w.id, "win-", 0) ==> v[k].text == w.id[4..])
      && v[k].target == CtxTarget(TaskbarEntry, Str(v[k].text), Str(s.taskbar[k]))
  {
    seq(|s.taskbar|, k requires 0 <= k < |s.taskbar| =>
      var t := TaskbarLabel(GetElementById(doc, s.taskbar[k]).value);
      assert Text.OccursAt(s.taskbar[k], "win-", 0) ==> Text.FirstAt(s.taskbar[k], "win-", 0);
      TaskbarItem(s.taskbar[k], t, CtxTarget(TaskbarEntry, Str(t), Str(s.taskbar[k]))))
  }

  /** The ids of all windows of the page. */
  function WindowIds(doc: Document): set<string> {
    set k | 0 <= k < |doc| :: doc[k].id
  }

  /** The synchronous part of `enterReboot`: every window is hidden, every
      known app is closed and unhidden, and the recent list and the taskbar
      are emptied. The z-order counter is never reset. */
  function EnterReboot(doc: Document, s: Shell): (r: Shell)
    ensures r.appState.Keys == s.appState.Keys
    ensures forall a :: a in r.appState ==> r.appState[a] == Closed
    ensures r.recent == [] && r.taskbar == []
    ensures forall k :: 0 <= k < |doc| ==> doc[k].id in r.display && r.display[doc[k].id] == NoDisplay
    ensures forall id :: id !in WindowIds(doc) ==> (id in r.display <==> id in s.display)
    ensures forall id :: id !in WindowIds(doc) && id in s.display ==> r.display[id] == s.display[id]
    ensures r.z == s.z && r.zCounter == s.zCounter && r.active == s.active && r.ctx == s.ctx
  {
    s.(display := s.display + map id | id in WindowIds(doc) :: NoDisplay,
       appState := map a | a in s.appState :: Closed,
       recent := [],
       taskbar := [])
  }

  /* ---------------------------------------------------------------
     Dock rendering
     --------------------------------------------------------------- */

  /** A recent-apps button: app, icon, whether the green dot is drawn, and the
      context-menu target attached to it. */
  datatype DockButton = DockButton(appId: string, icon: string, indicator: bool, target: CtxTarget)

  /** The recent-apps area: whether the divider is displayed, and the buttons. */
  datatype DockView = DockView(dividerShown: bool, buttons: seq<DockButton>)

  /** The apps that have an icon of their own. */
  const IconApps := ["browser", "files", "terminal", "settings", "notes", "about"]

  /** The package icon every other app gets. */
  const DefaultIcon := "\U{1F4E6}"

  /** The icon of a recent-apps button, by app: the package icon exactly
      for an app without an icon of its own. */
  function Icon(a: string): (i: string)
    ensures i == DefaultIcon <==> a !in IconApps
  {
    if a == "browser" then "\U{1F310}"
    else if a == "files" then "\U{1F5C2}\U{FE0F}"
    else if a == "terminal" then ">"
    else if a == "settings" then "\U{2699}\U{FE0F}"
    else if a == "notes" then "\U{1F4DD}"
    else if a == "about" then "OS"
    else DefaultIcon
  }

  /** Two apps with icons of their own never share an icon. */
  lemma IconsDistinct(a: string, b: string)
    requires a in IconApps && b in IconApps && a != b
    ensures Icon(a) != Icon(b)
  {
  }

  /** The dot is drawn when the app is open and hidden. The source first
      calls `ensureAppState`, which creates a closed entry, so an app without
      an entry has no dot. */
  predicate ShowsIndicator(s: Shell, a: string) {
    a in s.appState && s.appState[a].open && s.appState[a].hidden
  }

  function RenderButton(doc: Document, s: Shell, a: string): DockButton {
    var win := GetWindowByAppId(doc, a);
    DockButton(a, Icon(a), ShowsIndicator(s, a),
               CtxTarget(DockRecent, Str(a), if win.Some? then Str(win.value.id) else Undefined))
  }

  /** `renderDockRecent`: one button per recent app, in list order; the
      divider is shown exactly when the list is not empty. */
  function RenderDockRecent(doc: Document, s: Shell): (v: DockView)
    ensures v.dividerShown <==> |s.recent| > 0
    ensures |v.buttons| == |s.recent|
    ensures forall k :: 0 <= k < |v.buttons| ==>
      && v.buttons[k].appId == s.recent[k]
      && (v.buttons[k].indicator <==> s.recent[k] in s.appState && s.appState[s.recent[k]].open && s.appState[s.recent[k]].hidden)
  {
    if |s.recent| == 0 then DockView(false, [])
    else DockView(true, seq(|s.recent|, k requires 0 <= k < |s.recent| => RenderButton(doc, s, s.recent[k])))
  }

  /* ---------------------------------------------------------------
     Context menu
     --------------------------------------------------------------- */

  /** `showContextMenu`: the target is remembered (placement on screen is
      layout and is not modelled). */
  function ShowContextMenu(s: Shell, t: CtxTarget): (r: Shell)
    ensures r.ctx == Some(t)
    ensures r.(ctx := s.ctx) == s
  {
    s.(ctx := Some(t))
  }

  /** `hideContextMenu`: the target is cleared. */
  function HideContextMenu(s: Shell): (r: Shell)
    ensures r.ctx.None?
    ensures r.(ctx := s.ctx) == s
  {
    s.(ctx := None)
  }

  /** The window a context-menu target designates: by window id when the
      target has one, otherwise (or when that fails and the target has an
      app) by app id. */
  function ResolveTarget(doc: Document, t: CtxTarget): (r: Option<Window>)
    ensures r.Some? ==> r.value in doc
    ensures Truthy(t.windowId) && GetElementById(doc, t.windowId.s).Some? ==> r == GetElementById(doc, t.windowId.s)
    ensures Truthy(t.windowId) && GetElementById(doc, t.windowId.s).None? ==>
      (r.None? <==> !Truthy(t.appId) || forall k :: 0 <= k < |doc| ==> doc[k].appAttr != Some(t.appId.s))
    ensures Truthy(t.windowId) && GetElementById(doc, t.windowId.s).None? && r.Some? ==> r.value.appAttr == Some(t.appId.s)
    ensures !Truthy(t.windowId) ==>
      (r.None? <==> forall k :: 0 <= k < |doc| ==> doc[k].appAttr != Some(Interpolate(t.appId)))
    ensures !Truthy(t.windowId) && r.Some? ==> r.value.appAttr == Some(Interpolate(t.appId))
  {
    var first := if Truthy(t.windowId) then GetElementById(doc, t.windowId.s)
                 else GetWindowByAppId(doc, Interpolate(t.appId));
    if first.None? && Truthy(t.appId) then GetWindowByAppId(doc, Interpolate(t.appId))
    else first
  }

  /** A target whose window id names an existing window designates that
      window. A target without a window id, or whose window id names no
      window of the page, but with an app designates the app's window. */
  lemma ResolveTargetFinds(doc: Document, t: CtxTarget, w: Window)
    requires WellFormed(doc) && w in doc
    requires || t.windowId == Str(w.id)
             || (!Truthy(t.windowId) && AppOf(w).Some? && t.appId == Str(AppOf(w).value))
             || (Truthy(t.windowId) && GetElementById(doc, t.windowId.s).None?
                 && AppOf(w).Some? && t.appId == Str(AppOf(w).value))
    ensures ResolveTarget(doc, t) == Some(w)
  {
    ByIdFindsWindow(doc, w);
    if AppOf(w).Some? {
      ByAppFindsWindow(doc, w);
    }
  }

  /** A context-menu button: with no target nothing happens; a target that
      designates no window just closes the menu; otherwise "open", "hide" and
      "close" open, minimise and close the window, and the menu closes. */
  function CtxAction(doc: Document, s: Shell, action: string): (r: Shell)
    ensures s.ctx.None? ==> r == s
    ensures s.ctx.Some? ==> r.ctx.None?
    ensures s.ctx.Some? && ResolveTarget(doc, s.ctx.value).None? ==> r == HideContextMenu(s)
    ensures s.ctx.Some? && ResolveTarget(doc, s.ctx.value).Some? ==>
      var w := ResolveTarget(doc, s.ctx.value).value;
      && (action == "open" ==> r == HideContextMenu(OpenWindow(doc, s, w.id)))
      && (action == "hide" ==> r == HideContextMenu(MinimizeWindow(s, w)))
      && (action == "close" ==> r == HideContextMenu(CloseWindow(s, w)))
      && (action !in ["open", "hide", "close"] ==> r == HideContextMenu(s))
    ensures r.zCounter >= s.zCounter
  {
    match s.ctx
    case None => s
    case Some(t) =>
      match ResolveTarget(doc, t)
      case None => HideContextMenu(s)
      case Some(w) =>
        var s1 := if action == "open" then OpenWindow(doc, s, w.id)
                  else if action == "hide" then MinimizeWindow(s, w)
                  else if action == "close" then CloseWindow(s, w)
                  else s;
        HideContextMenu(s1)
  }
}

=== FILE: shell_invariants.dfy ===
/** Invariants of the shell state and the proofs that every transition of
    module Shell keeps them, on a well-formed page (distinct window ids,
    distinct apps). */
module ShellInvariants {
  import opened Options
  import opened Seqs
  import opened Dom
  import opened Shell
  import RecentApps

  /** The app (if any) is open. */
  predicate AppOpen(s: Shell, app: Option<string>) {
    app.None? || (app.value in s.appState && s.appState[app.value].open)
  }

  /** The app (if any) is open and not minimised. */
  predicate AppVisible(s: Shell, app: Option<string>) {
    app.None? || (app.value in s.appState && s.appState[app.value].open && !s.appState[app.value].hidden)
  }

  /** The window with this id exists and its app is open. */
  predicate WindowOpen(doc: Document, s: Shell, id: string) {
    GetElementById(doc, id).Some? && AppOpen(s, AppOf(GetElementById(doc, id).value))
  }

  /** The window with this id exists and its app is open and not minimised. */
  predicate WindowVisible(doc: Document, s: Shell, id: string) {
    GetElementById(doc, id).Some? && AppVisible(s, AppOf(GetElementById(doc, id).value))
  }

  /** The recent list is bounded, without repeats, and holds only open apps. */
  ghost predicate RecentOk(s: Shell) {
    && RecentApps.Valid(s.recent)
    && (forall a :: a in s.recent ==> a in s.appState && s.appState[a].open)
  }

  /** At most one taskbar entry per window, and only for existing windows
      whose app is open. */
  ghost predicate TaskbarOk(doc: Document, s: Shell) {
    && NoDups(s.taskbar)
    && (forall id :: id in s.taskbar ==> WindowOpen(doc, s, id))
  }

  /** A minimised app is open. */
  ghost predicate HiddenOk(s: Shell) {
    forall a :: a in s.appState && s.appState[a].hidden ==> s.appState[a].open
  }

  /** A displayed window has a taskbar entry and its app is open and not
      minimised. */
  ghost predicate DisplayOk(doc: Document, s: Shell) {
    forall id :: IsShown(s, id) ==> id in s.taskbar && WindowVisible(doc, s, id)
  }

  /** No z-index exceeds the counter; the active window is the only one whose
      z-index equals it; the counter never went below its starting value. */
  ghost predicate ZOk(s: Shell) {
    && (forall id :: id in s.z ==> s.z[id] <= s.zCounter)
    && (forall id :: id in s.z && s.active != Some(id) ==> s.z[id] < s.zCounter)
    && (s.active.Some? ==> s.active.value in s.z && s.z[s.active.value] == s.zCounter)
    && s.zCounter >= InitialZ
  }

  /** What holds of every reachable shell state. The taskbar part is one-way:
      a window with a taskbar entry has an open app, but an open app need not
      have a taskbar entry (see `MinimizedAppHasNoTaskbarEntry`). */
  ghost predicate Inv(doc: Document, s: Shell) {
    RecentOk(s) && TaskbarOk(doc, s) && HiddenOk(s) && DisplayOk(doc, s) && ZOk(s)
  }

  /** Window predicates only look at the app's entry. */
  lemma SameAppSameWindowState(doc: Document, s: Shell, r: Shell, id: string)
    requires GetElementById(doc, id).Some?
    requires var app := AppOf(GetElementById(doc, id).value);
      app.Some? ==> (app.value in s.appState <==> app.value in r.appState)
                    && (app.value in s.appState ==> s.appState[app.value] == r.appState[app.value])
    ensures WindowOpen(doc, s, id) <==> WindowOpen(doc, r, id)
    ensures WindowVisible(doc, s, id) <==> WindowVisible(doc, r, id)
  {
  }

  lemma InitialInv(doc: Document)
    ensures Inv(doc, Initial())
  {
  }

  /** Focusing keeps the invariant: the focused window is now the unique top. */
  lemma FocusKeepsInv(doc: Document, s: Shell, id: string)
    requires Inv(doc, s)
    ensures Inv(doc, FocusWindow(s, id))
  {
    var r := FocusWindow(s, id);
    assert r.appState == s.appState && r.display == s.display && r.taskbar == s.taskbar;
    forall v | v in r.taskbar ensures WindowOpen(doc, r, v) {
      assert WindowOpen(doc, s, v);
    }
    forall v | IsShown(r, v) ensures v in r.taskbar && WindowVisible(doc, r, v) {
      assert IsShown(s, v) && WindowVisible(doc, s, v);
    }
  }

  /** The context-menu target plays no part in the invariant. */
  lemma CtxIrrelevant(doc: Document, s: Shell, t: Option<CtxTarget>)
    requires Inv(doc, s)
    ensures Inv(doc, s.(ctx := t))
  {
    var r := s.(ctx := t);
    forall v | v in r.taskbar ensures WindowOpen(doc, r, v) {
      assert WindowOpen(doc, s, v);
    }
    forall v | IsShown(r, v) ensures v in r.taskbar && WindowVisible(doc, r, v) {
      assert IsShown(s, v) && WindowVisible(doc, s, v);
    }
  }

  /** The app part of opening or minimising window `w`: its app (if any)
      gets status `st` and moves to the head of the recent list. */
  predicate Marked(s: Shell, w: Window, r: Shell, st: AppStatus) {
    && r.appState == (if AppOf(w).Some? then s.appState[AppOf(w).value := st] else s.appState)
    && r.recent == (if AppOf(w).Some? then RecentApps.Touch(s.recent, AppOf(w).value) else s.recent)
  }

  /** `r` is `s` after opening window `w`, field by field: the app is open
      and visible and heads the recent list, the window is displayed, has a
      taskbar entry and is focused; the context-menu target is kept. */
  predicate Opened(s: Shell, w: Window, r: Shell) {
    && Marked(s, w, r, AppStatus(true, false))
    && r.taskbar == (if w.id in s.taskbar then s.taskbar else s.taskbar + [w.id])
    && r.display == s.display[w.id := Flex]
    && r.z == s.z[w.id := s.zCounter + 1] && r.zCounter == s.zCounter + 1
    && r.active == Some(w.id) && r.ctx == s.ctx
  }

  /** `r` is `s` after minimising window `w`: the app is open and hidden
      and heads the recent list, the window is no longer displayed, and
      the taskbar, z-order, focus and context-menu target are kept. */
  predicate Minimized(s: Shell, w: Window, r: Shell) {
    && Marked(s, w, r, AppStatus(true, true))
    && r.taskbar == s.taskbar
    && r.display == s.display[w.id := NoDisplay]
    && r.z == s.z && r.zCounter == s.zCounter && r.active == s.active && r.ctx == s.ctx
  }

  /** The app part of opening, field by field. */
  lemma MarkOpenedEffect(s: Shell, w: Window)
    ensures var m := MarkOpened(s, w);
      && Marked(s, w, m, AppStatus(true, false))
      && m.(appState := s.appState, recent := s.recent) == s
  {
  }

  /** Opening an existing window has exactly the effect `Opened` describes. */
  lemma OpenEffect(doc: Document, s: Shell, w: Window)
    requires GetElementById(doc, w.id) == Some(w)
    ensures Opened(s, w, OpenWindow(doc, s, w.id))
  {
    MarkOpenedEffect(s, w);
    var m := MarkOpened(s, w);
    var s3 := FocusWindow(m.(display := m.display[w.id := Flex]), w.id);
    assert OpenWindow(doc, s, w.id) == OpenExisting(doc, s, w) == AddToTaskbar(doc, s3, w.id);
  }

  /** Minimising a window has exactly the effect `Minimized` describes. */
  lemma MinimizeEffect(s: Shell, w: Window)
    ensures Minimized(s, w, MinimizeWindow(s, w))
  {
  }

  /** Giving an app an open status and moving it to the head of the recent
      list keeps the recent list valid and made of open apps. */
  lemma MarkedRecentOk(s: Shell, w: Window, r: Shell, st: AppStatus)
    requires RecentOk(s) && Marked(s, w, r, st) && st.open
    ensures RecentOk(r)
  {
    forall a | a in r.recent ensures a in r.appState && r.appState[a].open {
      if AppOf(w).Some? {
        var k :| 0 <= k < |r.recent| && r.recent[k] == a;
        RecentApps.TouchOnlyAdds(s.recent, AppOf(w).value, k);
      }
    }
    if AppOf(w).Some? {
      RecentApps.TouchKeepsValid(s.recent, AppOf(w).value);
    }
  }

  /** After the app of `w` is marked, the windows of other apps are as
      they were, and the windows of the same app are open (and visible
      when the new status is not hidden). */
  lemma MarkedWindowState(doc: Document, s: Shell, w: Window, r: Shell, st: AppStatus, v: string)
    requires Marked(s, w, r, st)
    requires GetElementById(doc, v).Some?
    ensures AppOf(GetElementById(doc, v).value) == AppOf(w) && st.open ==> WindowOpen(doc, r, v)
    ensures AppOf(GetElementById(doc, v).value) == AppOf(w) && st == AppStatus(true, false) ==> WindowVisible(doc, r, v)
    ensures AppOf(GetElementById(doc, v).value) != AppOf(w) ==>
      (WindowOpen(doc, s, v) <==> WindowOpen(doc, r, v)) && (WindowVisible(doc, s, v) <==> WindowVisible(doc, r, v))
  {
    if AppOf(GetElementById(doc, v).value) != AppOf(w) {
      SameAppSameWindowState(doc, s, r, v);
    }
  }

  lemma OpenedTaskbarOk(doc: Document, s: Shell, w: Window, r: Shell)
    requires GetElementById(doc, w.id) == Some(w)
    requires TaskbarOk(doc, s) && Opened(s, w, r)
    ensures TaskbarOk(doc, r)
  {
    forall v | v in r.taskbar ensures WindowOpen(doc, r, v) {
      if v != w.id {
        assert WindowOpen(doc, s, v);
      }
      MarkedWindowState(doc, s, w, r, AppStatus(true, false), v);
    }
  }

  lemma OpenedDisplayOk(doc: Document, s: Shell, w: Window, r: Shell)
    requires GetElementById(doc, w.id) == Some(w)
    requires DisplayOk(doc, s) && Opened(s, w, r)
    ensures DisplayOk(doc, r)
  {
    forall v | IsShown(r, v) ensures v in r.taskbar && WindowVisible(doc, r, v) {
      if v != w.id {
        assert IsShown(s, v) && v in s.taskbar;
        assert WindowVisible(doc, s, v);
      }
      MarkedWindowState(doc, s, w, r, AppStatus(true, false), v);
    }
  }

  lemma OpenedZOk(s: Shell, w: Window, r: Shell)
    requires ZOk(s) && Opened(s, w, r)
    ensures ZOk(r)
  {
  }

  /** Opening a window keeps the invariant. */
  lemma OpenKeepsInv(doc: Document, s: Shell, id: string)
    requires Inv(doc, s)
    ensures Inv(doc, OpenWindow(doc, s, id))
  {
    if GetElementById(doc, id).Some? {
      var w := GetElementById(doc, id).value;
      var r := OpenWindow(doc, s, id);
      OpenEffect(doc, s, w);
      MarkedRecentOk(s, w, r, AppStatus(true, false));
      OpenedTaskbarOk(doc, s, w, r);
      OpenedDisplayOk(doc, s, w, r);
      OpenedZOk(s, w, r);
    }
  }

  /** The effect of closing a window, field by field. */
  lemma CloseEffect(s: Shell, w: Window)
    ensures var r := CloseWindow(s, w);
      && r.appState == (if AppOf(w).Some? then s.appState[AppOf(w).value := Closed] else s.appState)
      && r.recent == (if AppOf(w).Some? then RemoveFirst(s.recent, AppOf(w).value) else s.recent)
      && r.taskbar == RemoveFirst(s.taskbar, w.id)
      && r.display == s.display[w.id := NoDisplay]
      && r.z == s.z && r.zCounter == s.zCounter && r.active == s.active
  {
  }

  /** Closing one window leaves the state of every other window as it was. */
  lemma CloseOthersUnchanged(doc: Document, s: Shell, w: Window, v: string)
    requires WellFormed(doc) && w in doc
    requires v != w.id && GetElementById(doc, v).Some?
    ensures WindowOpen(doc, s, v) <==> WindowOpen(doc, CloseWindow(s, w), v)
    ensures WindowVisible(doc, s, v) <==> WindowVisible(doc, CloseWindow(s, w), v)
  {
    CloseEffect(s, w);
    SameIdSameWindow(doc, GetElementById(doc, v).value, w);
    SameAppSameWindowState(doc, s, CloseWindow(s, w), v);
  }

  lemma CloseKeepsRecentOk(s: Shell, w: Window)
    requires RecentOk(s)
    ensures RecentOk(CloseWindow(s, w))
  {
    var r := CloseWindow(s, w);
    CloseEffect(s, w);
    if AppOf(w).Some? {
      RemoveFirstNoDups(s.recent, AppOf(w).value);
      forall a | a in r.recent ensures a in r.appState && r.appState[a].open {
        assert a in multiset(r.recent);
      }
    }
  }

  lemma CloseKeepsTaskbarOk(doc: Document, s: Shell, w: Window)
    requires WellFormed(doc) && w in doc
    requires TaskbarOk(doc, s)
    ensures TaskbarOk(doc, CloseWindow(s, w))
  {
    var r := CloseWindow(s, w);
    CloseEffect(s, w);
    RemoveFirstNoDups(s.taskbar, w.id);
    forall v | v in r.taskbar ensures WindowOpen(doc, r, v) {
      assert v in multiset(r.taskbar);
      assert v != w.id && v in s.taskbar;
      CloseOthersUnchanged(doc, s, w, v);
    }
  }

  lemma CloseKeepsDisplayOk(doc: Document, s: Shell, w: Window)
    requires WellFormed(doc) && w in doc
    requires NoDups(s.taskbar) && DisplayOk(doc, s)
    ensures DisplayOk(doc, CloseWindow(s, w))
  {
    var r := CloseWindow(s, w);
    CloseEffect(s, w);
    forall v | IsShown(r, v) ensures v in r.taskbar && WindowVisible(doc, r, v) {
      assert v != w.id && IsShown(s, v);
      assert v in s.taskbar && WindowVisible(doc, s, v);
      assert v in multiset(s.taskbar) - multiset{w.id};
      CloseOthersUnchanged(doc, s, w, v);
    }
  }

  /** Closing a listed window keeps the invariant. */
  lemma CloseKeepsInv(doc: Document, s: Shell, w: Window)
    requires WellFormed(doc) && w in doc
    requires Inv(doc, s)
    ensures Inv(doc, CloseWindow(s, w))
  {
    CloseEffect(s, w);
    CloseKeepsRecentOk(s, w);
    CloseKeepsTaskbarOk(doc, s, w);
    CloseKeepsDisplayOk(doc, s, w);
  }

  lemma MinimizedTaskbarOk(doc: Document, s: Shell, w: Window, r: Shell)
    requires TaskbarOk(doc, s) && Minimized(s, w, r)
    ensures TaskbarOk(doc, r)
  {
    forall v | v in r.taskbar ensures WindowOpen(doc, r, v) {
      assert WindowOpen(doc, s, v);
      MarkedWindowState(doc, s, w, r, AppStatus(true, true), v);
    }
  }

  lemma MinimizedDisplayOk(doc: Document, s: Shell, w: Window, r: Shell)
    requires WellFormed(doc) && w in doc
    requires DisplayOk(doc, s) && Minimized(s, w, r)
    ensures DisplayOk(doc, r)
  {
    forall v | IsShown(r, v) ensures v in r.taskbar && WindowVisible(doc, r, v) {
      assert v != w.id && IsShown(s, v);
      assert v in s.taskbar && WindowVisible(doc, s, v);
      SameIdSameWindow(doc, GetElementById(doc, v).value, w);
      MarkedWindowState(doc, s, w, r, AppStatus(true, true), v);
    }
  }

  /** Minimising a listed window keeps the invariant. */
  lemma MinimizeKeepsInv(doc: Document, s: Shell, w: Window)
    requires WellFormed(doc) && w in doc
    requires Inv(doc, s)
    ensures Inv(doc, MinimizeWindow(s, w))
  {
    var r := MinimizeWindow(s, w);
    MinimizeEffect(s, w);
    MarkedRecentOk(s, w, r, AppStatus(true, true));
    MinimizedTaskbarOk(doc, s, w, r);
    MinimizedDisplayOk(doc, s, w, r);
  }

  /** Rebooting keeps the invariant. */
  lemma RebootKeepsInv(doc: Document, s: Shell)
    requires Inv(doc, s)
    ensures Inv(doc, EnterReboot(doc, s))
  {
    var r := EnterReboot(doc, s);
    assert forall v :: IsShown(s, v) ==> v in WindowIds(doc) by {
      forall v | IsShown(s, v) ensures v in WindowIds(doc) {
        assert WindowOpen(doc, s, v);
        var w := GetElementById(doc, v).value;
        var k :| 0 <= k < |doc| && doc[k] == w;
      }
    }
    forall v | v in r.display ensures r.display[v] == NoDisplay {
      if v !in WindowIds(doc) {
        assert !IsShown(s, v);
      }
    }
  }

  /** A taskbar click focuses or opens its window, and either keeps the
      invariant. */
  lemma TaskbarClickKeepsInv(doc: Document, s: Shell, id: string)
    requires WellFormed(doc)
    requires Inv(doc, s)
    ensures Inv(doc, TaskbarClick(doc, s, id))
  {
    FocusKeepsInv(doc, s, id);
    OpenKeepsInv(doc, s, id);
  }

  /** A recent-apps click opens the app's window, if any, and so keeps the
      invariant. */
  lemma DockRecentClickKeepsInv(doc: Document, s: Shell, a: string)
    requires WellFormed(doc)
    requires Inv(doc, s)
    ensures Inv(doc, DockRecentClick(doc, s, a))
  {
    match GetWindowByAppId(doc, a)
    case None =>
    case Some(w) => OpenKeepsInv(doc, s, w.id);
  }

  /** A context-menu action opens, minimises or closes the designated
      window and then clears the target, keeping the invariant. */
  lemma CtxActionKeepsInv(doc: Document, s: Shell, action: string)
    requires WellFormed(doc)
    requires Inv(doc, s)
    ensures Inv(doc, CtxAction(doc, s, action))
  {
    match s.ctx
    case None =>
    case Some(t) =>
      match ResolveTarget(doc, t)
      case None => CtxIrrelevant(doc, s, None);
      case Some(w) =>
        assert w in doc;
        var s1 := if action == "open" then OpenWindow(doc, s, w.id)
                  else if action == "hide" then MinimizeWindow(s, w)
                  else if action == "close" then CloseWindow(s, w)
                  else s;
        OpenKeepsInv(doc, s, w.id);
        MinimizeKeepsInv(doc, s, w);
        CloseKeepsInv(doc, s, w);
        CtxIrrelevant(doc, s1, None);
  }
}

=== FILE: shell_properties.dfy ===
/** Properties of the window lifecycle that relate several operations. */
module ShellProperties {
  import opened Options
  import opened Seqs
  import opened Dom
  import opened Shell
  import opened ShellInvariants
  import RecentApps

  /** Closing a window that is already closed, hidden and off the taskbar
      and the recent list changes nothing. */
  lemma CloseClosedIsNoop(r: Shell, w: Window)
    requires w.id in r.display && r.display[w.id] == NoDisplay
    requires w.id !in r.taskbar
    requires AppOf(w).Some? ==> AppOf(w).value in r.appState && r.appState[AppOf(w).value] == Closed
                                && AppOf(w).value !in r.recent
    ensures CloseWindow(r, w) == r
  {
    CloseEffect(r, w);
    assert r.display[w.id := NoDisplay] == r.display;
    if AppOf(w).Some? {
      assert r.appState[AppOf(w).value := Closed] == r.appState;
    }
  }

  /** Closing an already-closed window changes nothing more. */
  lemma CloseIdempotent(s: Shell, w: Window)
    requires NoDups(s.recent) && NoDups(s.taskbar)
    ensures CloseWindow(CloseWindow(s, w), w) == CloseWindow(s, w)
  {
    CloseClosedIsNoop(CloseWindow(s, w), w);
  }

  /** Opening a window and then closing it leaves its app closed, with no
      taskbar entry, no place in the recent list and no display. */
  lemma OpenThenClose(doc: Document, s: Shell, w: Window)
    requires WellFormed(doc) && w in doc
    requires Inv(doc, s)
    ensures var r := CloseWindow(OpenWindow(doc, s, w.id), w);
      && w.id !in r.taskbar
      && !IsShown(r, w.id)
      && (AppOf(w).Some? ==> r.appState[AppOf(w).value] == Closed && AppOf(w).value !in r.recent)
  {
    OpenKeepsInv(doc, s, w.id);
  }

  /** Minimising a window that was never opened marks its app open but gives
      it no taskbar entry, in a state that satisfies the invariant: "open"
      does not imply "on the taskbar". */
  lemma MinimizedAppHasNoTaskbarEntry()
    ensures var doc := [Window("win-notes", Some("notes"))];
            var r := MinimizeWindow(Initial(), doc[0]);
      && WellFormed(doc) && Inv(doc, r)
      && "notes" in r.appState && r.appState["notes"].open
      && "win-notes" !in r.taskbar
  {
    var doc := [Window("win-notes", Some("notes"))];
    InitialInv(doc);
    MinimizeKeepsInv(doc, Initial(), doc[0]);
  }

  /** Focusing w1, w2 and w1 again hands out strictly increasing z-indices,
      and w1 ends above w2 as the active window. */
  lemma FocusOrder(s: Shell, w1: string, w2: string)
    requires w1 != w2
    ensures var s1 := FocusWindow(s, w1);
            var s2 := FocusWindow(s1, w2);
            var s3 := FocusWindow(s2, w1);
      && s1.z[w1] < s2.z[w2] < s3.z[w1]
      && s3.z[w2] < s3.z[w1]
      && s3.active == Some(w1)
  {
  }

  /** In a reachable state the active window is strictly above every other
      window that has a z-index. */
  lemma ActiveIsTop(doc: Document, s: Shell, v: string)
    requires Inv(doc, s)
    requires s.active.Some? && v in s.z && v != s.active.value
    ensures s.z[v] < s.z[s.active.value]
  {
  }

  /** In a reachable state the dock's dot for a recent app is drawn exactly
      when the app is minimised. */
  lemma IndicatorIffHidden(doc: Document, s: Shell, k: nat)
    requires Inv(doc, s)
    requires k < |s.recent|
    ensures var v := RenderDockRecent(doc, s);
      v.buttons[k].indicator <==> s.appState[s.recent[k]].hidden
  {
  }

  /** In a reachable state every recent app already has an entry, so the
      `ensureAppState` that rendering performs creates nothing. */
  lemma RenderCreatesNoEntry(doc: Document, s: Shell, a: string)
    requires Inv(doc, s)
    requires a in s.recent
    ensures EnsureAppState(s, a) == s
  {
  }

  /** Minimising an open window shows a dot for its app at the head of the
      recent apps; closing it afterwards removes both the dot and the
      taskbar entry. */
  lemma MinimizeThenClose(doc: Document, s: Shell, w: Window)
    requires WellFormed(doc) && w in doc && AppOf(w).Some?
    requires Inv(doc, s)
    ensures var m := MinimizeWindow(s, w);
      && RenderDockRecent(doc, m).buttons[0].appId == AppOf(w).value
      && RenderDockRecent(doc, m).buttons[0].indicator
    ensures var c := CloseWindow(MinimizeWindow(s, w), w);
      && w.id !in c.taskbar
      && forall b :: b in RenderDockRecent(doc, c).buttons ==> b.appId != AppOf(w).value
  {
    var m := MinimizeWindow(s, w);
    MinimizeKeepsInv(doc, s, w);
    var c := CloseWindow(m, w);
    var v := RenderDockRecent(doc, c);
    forall b | b in v.buttons ensures b.appId != AppOf(w).value {
      var k :| 0 <= k < |v.buttons| && v.buttons[k] == b;
      assert b.appId == c.recent[k];
    }
  }

  /** A reboot closes every app and empties the dock and the taskbar, and
      every app reads as closed afterwards. */
  lemma RebootClosesAll(doc: Document, s: Shell)
    ensures var r := EnterReboot(doc, s);
      && RenderDockRecent(doc, r) == DockView(false, [])
      && forall a :: a in r.appState ==> !r.appState[a].open && !r.appState[a].hidden
  {
  }

  /** Every taskbar entry can be drawn, and its context menu acts on the
      entry's own window. */
  lemma TaskbarMenuDesignatesItsWindow(doc: Document, s: Shell, k: nat)
    requires WellFormed(doc) && Inv(doc, s)
    requires k < |s.taskbar|
    ensures forall j :: 0 <= j < |s.taskbar| ==> GetElementById(doc, s.taskbar[j]).Some?
    ensures ResolveTarget(doc, RenderTaskbar(doc, s)[k].target) == GetElementById(doc, s.taskbar[k])
  {
    forall j | 0 <= j < |s.taskbar| ensures GetElementById(doc, s.taskbar[j]).Some? {
      assert WindowOpen(doc, s, s.taskbar[j]);
    }
    var w := GetElementById(doc, s.taskbar[k]).value;
    ResolveTargetFinds(doc, RenderTaskbar(doc, s)[k].target, w);
  }
}

=== FILE: terminal.dfy ===
/** The fake terminal (apps.js): a command line is trimmed, split on single
    spaces and dispatched on its first piece. A command either appends one
    line to the output buffer or clears it, and `open` may also ask the shell
    to open a window. */
module Terminal {
  import opened Options
  import opened Seqs
  import opened Dom
  import opened Text
  import FileManager
  import Shell
  import ShellInvariants

  /** What a command does to the output buffer. */
  datatype Output = Print(text: string) | ClearScreen

  /** A command's effect: the buffer change and, for `open`, the window to
      open. */
  datatype Reply = Reply(output: Output, openRequest: Option<string>)

  const HelpText := "Commands:\nhelp\nls\ncd <folder>\nopen <app>\nclear\nabout"
  const LsText := "home  documents  music"
  const AboutText := "NamixOS Terminal\nPowered by SOLEN."
  const CdUsage := "Usage: cd <folder>"
  const OpenUsage := "Usage: open <app>"

  /** The command words the dispatcher recognises. */
  const Commands := ["help", "ls", "cd", "open", "clear", "about"]

  /** `cmd.trim().split(" ")`. */
  function Tokens(cmd: string): (parts: seq<string>)
    ensures |parts| >= 1
    ensures JoinWith(parts, " ") == Trim(cmd)
    ensures forall k :: 0 <= k < |parts| ==> ' ' !in parts[k]
  {
    Split(Trim(cmd))
  }

  /** `parts[1]` as the source tests it: a missing second piece is
      `undefined`, and both it and the empty piece are falsy, so both read
      as "no argument". */
  function Arg(parts: seq<string>): string {
    if |parts| > 1 then parts[1] else ""
  }

  /** `termPrint(text)`: the text and a newline are appended. */
  function TermPrint(buffer: string, text: string): (r: string)
    ensures |r| == |buffer| + |text| + 1
    ensures r[..|buffer|] == buffer && r[|buffer|..|buffer| + |text|] == text && r[|r| - 1] == '\n'
  {
    buffer + text + "\n"
  }

  /* ---------------------------------------------------------------
     cd: the folder test
     --------------------------------------------------------------- */

  /** The names every plain object inherits from `Object.prototype`
      (ECMA-262 section 20.1.3 and Annex B.2.2). Looking one of them up on
      `fileSystem` yields a function or an object, which is truthy. */
  const ObjectPrototypeNames: set<string> := {
    "constructor", "hasOwnProperty", "isPrototypeOf", "propertyIsEnumerable",
    "toLocaleString", "toString", "valueOf", "__proto__",
    "__defineGetter__", "__defineSetter__", "__lookupGetter__", "__lookupSetter__"
  }

  /** The `cd` reply as the source computes it: `fileSystem[name]` is truthy
      for the three folders and for every inherited property name. */
  function CdReplyAsWritten(name: string): (t: string)
    ensures name == "" ==> t == CdUsage
    ensures name != "" && (name in FileManager.Folders() || name in ObjectPrototypeNames) ==> t == "Moved to " + name
    ensures name != "" && name !in FileManager.Folders() && name !in ObjectPrototypeNames ==> t == "Folder not found"
  {
    if name == "" then CdUsage
    else if name in FileManager.Folders() || name in ObjectPrototypeNames then "Moved to " + name
    else "Folder not found"
  }

  /** As written, `cd toString` (and `cd constructor`, `cd __proto__`, ...)
      answers "Moved to toString" although there is no such folder. */
  lemma CdAsWrittenAcceptsInheritedNames()
    ensures "toString" !in FileManager.Folders()
    ensures CdReplyAsWritten("toString") == "Moved to toString"
    ensures forall n :: n in ObjectPrototypeNames ==> n !in FileManager.Folders() && CdReplyAsWritten(n) == "Moved to " + n
  {
    assert FileManager.Folders() == ["home", "documents", "music"];
  }

  /** The `cd` reply with the folder test meaning "is a folder of the
      table" (an own key of `fileSystem`). */
  function CdReply(name: string): (t: string)
    ensures name == "" ==> t == CdUsage
    ensures name != "" && name in FileManager.Folders() ==> t == "Moved to " + name
    ensures name != "" && name !in FileManager.Folders() ==> t == "Folder not found"
  {
    if name == "" then CdUsage
    else if name in FileManager.Folders() then "Moved to " + name
    else "Folder not found"
  }

  /** `cd` reports a move exactly for the folders of the table, and then the
      move is to a folder `loadFolder` can list. */
  lemma CdMovesIffFolder(name: string)
    ensures CdReply(name) == "Moved to " + name <==> name in FileManager.Folders()
    ensures CdReply(name) == "Moved to " + name ==> !FileManager.LoadFolder(name).threw
  {
    var m := "Moved to " + name;
    assert m[0] == 'M';
    assert CdUsage[0] == 'U';
    assert "Folder not found"[0] == 'F';
    if name == "" {
      assert "" !in FileManager.Folders();
    }
  }

  /* ---------------------------------------------------------------
     runCommand
     --------------------------------------------------------------- */

  /** The branch of the `switch` a command line takes, with the piece it
      uses: the argument for `cd` and `open`, the word itself when it is not
      a command. */
  datatype Command = Help | Ls | Cd(name: string) | Open(app: string) | Clear | About | Unknown(word: string)

  /** The `switch (base)` of `runCommand`: `base` is the first piece of
      the line and `arg` what `parts[1]` gives. */
  function Dispatch(base: string, arg: string): (c: Command)
    ensures c == Help <==> base == "help"
    ensures c == Ls <==> base == "ls"
    ensures c == About <==> base == "about"
    ensures c.Unknown? <==> base !in Commands
    ensures c.Unknown? ==> c.word == base
    ensures c.Cd? <==> base == "cd"
    ensures c.Open? <==> base == "open"
    ensures c == Clear <==> base == "clear"
    ensures c.Cd? ==> c.name == arg
    ensures c.Open? ==> c.app == arg
  {
    if base == "help" then Help
    else if base == "ls" then Ls
    else if base == "cd" then Cd(arg)
    else if base == "open" then Open(arg)
    else if base == "clear" then Clear
    else if base == "about" then About
    else Unknown(base)
  }

  /** The command a line asks for: the first piece of the trimmed line picks
      the branch, and `cd` and `open` take the second piece (or nothing). */
  function Parse(cmd: string): (c: Command)
    ensures c.Unknown? <==> Tokens(cmd)[0] !in Commands
    ensures c.Unknown? ==> c.word == Tokens(cmd)[0]
    ensures c == Clear <==> Tokens(cmd)[0] == "clear"
    ensures c.Cd? <==> Tokens(cmd)[0] == "cd"
    ensures c.Open? <==> Tokens(cmd)[0] == "open"
    ensures c.Cd? ==> c.name == (if |Tokens(cmd)| > 1 then Tokens(cmd)[1] else "")
    ensures c.Open? ==> c.app == (if |Tokens(cmd)| > 1 then Tokens(cmd)[1] else "")
  {
    var parts := Tokens(cmd);
    Dispatch(parts[0], Arg(parts))
  }

  /** The body of each branch: one printed line, or the buffer cleared; only
      `open` on an existing window asks for the window to be opened. */
  function Execute(doc: Document, c: Command): (r: Reply)
    ensures r.output.ClearScreen? <==> c == Clear
    ensures c == Help ==> r == Reply(Print(HelpText), None)
    ensures c == Ls ==> r == Reply(Print(LsText), None)
    ensures c == About ==> r == Reply(Print(AboutText), None)
    ensures c.Unknown? ==> r == Reply(Print("Unknown command: " + c.word), None)
    ensures c.Cd? ==> r == Reply(Print(CdReplyAsWritten(c.name)), None)
    ensures r.openRequest.Some? <==> c.Open? && c.app != "" && GetElementById(doc, "win-" + c.app).Some?
    ensures r.openRequest.Some? ==> r == Reply(Print("Opening " + c.app + "..."), Some("win-" + c.app))
    ensures c == Open("") ==> r == Reply(Print(OpenUsage), None)
    ensures c.Open? && c.app != "" && GetElementById(doc, "win-" + c.app).None? ==> r == Reply(Print("App not found"), None)
  {
    match c
    case Help => Reply(Print(HelpText), None)
    case Ls => Reply(Print(LsText), None)
    case Cd(name) => Reply(Print(CdReplyAsWritten(name)), None)
    case Open(app) =>
      if app == "" then Reply(Print(OpenUsage), None)
      else if GetElementById(doc, "win-" + app).Some? then Reply(Print("Opening " + app + "..."), Some("win-" + app))
      else Reply(Print("App not found"), None)
    case Clear => Reply(ClearScreen, None)
    case About => Reply(Print(AboutText), None)
    case Unknown(word) => Reply(Print("Unknown command: " + word), None)
  }

  /** `runCommand(cmd)`: the buffer is cleared exactly for `clear`; a first
      piece that is no command is echoed back as unknown; `cd` answers with
      the folder test as written; a window is requested exactly for `open`
      of an app whose "win-" window exists. */
  function RunCommand(doc: Document, cmd: string): (r: Reply)
    ensures r.output.ClearScreen? <==> Tokens(cmd)[0] == "clear"
    ensures Tokens(cmd)[0] !in Commands ==> r == Reply(Print("Unknown command: " + Tokens(cmd)[0]), None)
    ensures Tokens(cmd)[0] == "cd" ==> r == Reply(Print(CdReplyAsWritten(Arg(Tokens(cmd)))), None)
    ensures r.openRequest.Some? <==>
      Tokens(cmd)[0] == "open" && Arg(Tokens(cmd)) != "" && GetElementById(doc, "win-" + Arg(Tokens(cmd))).Some?
    ensures r.openRequest.Some? ==> r.openRequest == Some("win-" + Arg(Tokens(cmd)))
  {
    Execute(doc, Parse(cmd))
  }

  /** The branches with the folder test of `cd` meaning "is a folder of the
      table": `cd` moves exactly to the folders, every other branch is as
      written. */
  function ExecuteIntended(doc: Document, c: Command): (r: Reply)
    ensures c.Cd? ==> r.openRequest.None? && r.output.Print?
    ensures c.Cd? ==> (r.output.text == "Moved to " + c.name <==> c.name in FileManager.Folders())
    ensures !c.Cd? ==> r == Execute(doc, c)
  {
    if c.Cd? then
      CdMovesIffFolder(c.name);
      Reply(Print(CdReply(c.name)), None)
    else Execute(doc, c)
  }

  /** `runCommand(cmd)` with the corrected folder test. */
  function RunCommandIntended(doc: Document, cmd: string): Reply {
    ExecuteIntended(doc, Parse(cmd))
  }

  /** The source and the corrected branches disagree only on `cd` of an
      inherited property name. */
  lemma IntendedDiffersOnlyOnInheritedNames(doc: Document, c: Command)
    ensures Execute(doc, c) != ExecuteIntended(doc, c) <==> c.Cd? && c.name in ObjectPrototypeNames
  {
    if c.Cd? && c.name in ObjectPrototypeNames {
      CdAsWrittenAcceptsInheritedNames();
      CdMovesIffFolder(c.name);
    }
  }

  /** The line "cd toString" reports a move in the source and "Folder not
      found" once corrected. */
  lemma CdToString(doc: Document)
    ensures RunCommand(doc, "cd toString") == Reply(Print("Moved to toString"), None)
    ensures RunCommandIntended(doc, "cd toString") == Reply(Print("Folder not found"), None)
  {
    CommandWordsPlain("cd");
    assert "cd toString" == "cd" + " " + "toString";
    ParseCommandLine("cd", "toString");
    CdAsWrittenAcceptsInheritedNames();
  }

  /** Every first piece that is not a command word is echoed back exactly as
      "Unknown command: " + piece, with no window opened; every command word
      is handled by its own branch. */
  lemma UnknownIffNotACommand(doc: Document, cmd: string)
    ensures Tokens(cmd)[0] !in Commands ==>
      RunCommand(doc, cmd) == Reply(Print("Unknown command: " + Tokens(cmd)[0]), None)
    ensures Tokens(cmd)[0] in Commands ==> !Parse(cmd).Unknown?
  {
  }

  /** The text `ls` prints is the folder names of the table, in table
      order, two spaces apart. */
  lemma LsTextIsFolders()
    ensures LsText == JoinWith(FileManager.Folders(), "  ")
  {
    FileManager.FoldersInOrder();
    JoinThree("home", "documents", "music", "  ");
    LsTextSpelled();
  }

  /** Three pieces joined with a separator. */
  lemma JoinThree(a: string, b: string, c: string, sep: string)
    ensures JoinWith([a, b, c], sep) == a + sep + b + sep + c
  {
    assert [a, b, c][1..] == [b, c];
    assert [b, c][1..] == [c];
    assert JoinWith([c], sep) == c;
    assert JoinWith([b, c], sep) == b + sep + c;
    assert JoinWith([a, b, c], sep) == a + sep + (b + sep + c);
  }

  /** The `ls` line is the three names with two spaces between them. */
  lemma LsTextSpelled()
    ensures LsText == "home" + "  " + "documents" + "  " + "music"
  {
  }

  /** The line "ls" is the `ls` command. */
  lemma ParseLs()
    ensures Parse("ls") == Ls
  {
    CommandWordsPlain("ls");
    ParseSingleWord("ls");
  }

  /** A line that is one plain word is dispatched on that word, with no
      argument. */
  lemma ParseSingleWord(word: string)
    requires word != ""
    requires forall k :: 0 <= k < |word| ==> !IsJsWhitespace(word[k])
    ensures Parse(word) == Dispatch(word, "")
  {
    TrimClean(word);
    assert ' ' !in word by {
      assert IsJsWhitespace(' ');
    }
    assert Split(word) == [word];
  }

  /** `ls` prints the folder names of the table and opens nothing. */
  lemma LsListsFolders(doc: Document)
    ensures RunCommand(doc, "ls") == Reply(Print(JoinWith(FileManager.Folders(), "  ")), None)
  {
    ParseLs();
    LsTextIsFolders();
  }

  /** A command word followed by one space and an argument, both free of
      whitespace, is read as exactly that word and that argument. */
  lemma TokensOfCommandLine(word: string, arg: string)
    requires word != "" && arg != ""
    requires forall k :: 0 <= k < |word| ==> !IsJsWhitespace(word[k])
    requires forall k :: 0 <= k < |arg| ==> !IsJsWhitespace(arg[k])
    ensures Tokens(word + " " + arg) == [word, arg]
  {
    var line := word + " " + arg;
    TrimClean(line);
    assert ' ' !in word && ' ' !in arg by {
      assert IsJsWhitespace(' ');
    }
    SplitAfterFirstSpace(word, arg);
  }

  /** No command word holds whitespace. */
  lemma CommandWordsPlain(word: string)
    requires word in Commands
    ensures word != "" && forall k :: 0 <= k < |word| ==> !IsJsWhitespace(word[k])
  {
  }

  /** Such a line is dispatched on that word with that argument. */
  lemma ParseCommandLine(word: string, arg: string)
    requires word != "" && arg != ""
    requires forall k :: 0 <= k < |word| ==> !IsJsWhitespace(word[k])
    requires forall k :: 0 <= k < |arg| ==> !IsJsWhitespace(arg[k])
    ensures Parse(word + " " + arg) == Dispatch(word, arg)
  {
    TokensOfCommandLine(word, arg);
  }

  /** Two spaces after the command word make the argument the empty piece:
      `cd  home` asks for usage instead of moving, whatever the folder. */
  lemma DoubleSpaceIsNoArgument(doc: Document, name: string)
    requires name != ""
    requires forall k :: 0 <= k < |name| ==> !IsJsWhitespace(name[k])
    ensures RunCommand(doc, "cd  " + name) == Reply(Print(CdUsage), None)
  {
    CommandWordsPlain("cd");
    TokensWithDoubleSpace("cd", name);
    assert "cd" + "  " + name == "cd  " + name;
    assert Parse("cd  " + name) == Cd("");
  }

  /** Two spaces between a plain word and a plain argument put an empty
      piece between them. */
  lemma TokensWithDoubleSpace(word: string, arg: string)
    requires word != "" && arg != ""
    requires forall k :: 0 <= k < |word| ==> !IsJsWhitespace(word[k])
    requires forall k :: 0 <= k < |arg| ==> !IsJsWhitespace(arg[k])
    ensures Tokens(word + "  " + arg) == [word, "", arg]
  {
    var line := word + "  " + arg;
    assert line[0] == word[0] && line[|line| - 1] == arg[|arg| - 1];
    TrimClean(line);
    assert ' ' !in word && ' ' !in arg by {
      assert IsJsWhitespace(' ');
    }
    SplitDoubleSpace(word, arg, line);
  }

  /** Splitting on single spaces turns a double space into an empty piece. */
  lemma SplitDoubleSpace(word: string, arg: string, line: string)
    requires ' ' !in word && ' ' !in arg
    requires line == word + "  " + arg
    ensures Split(line) == [word, "", arg]
  {
    assert line == word + " " + ("" + " " + arg);
    SplitAfterFirstSpace(word, "" + " " + arg);
    SplitAfterFirstSpace("", arg);
  }

  /** No folder name holds whitespace. */
  lemma FolderNamesPlain(f: string)
    requires f in FileManager.Folders()
    ensures f != "" && forall k :: 0 <= k < |f| ==> !IsJsWhitespace(f[k])
  {
    assert FileManager.Folders() == ["home", "documents", "music"];
  }

  /** A line made of a plain word, one space and a plain argument runs
      the command that word and argument select. */
  lemma RunPlainLine(doc: Document, word: string, arg: string, line: string)
    requires word != "" && arg != ""
    requires forall k :: 0 <= k < |word| ==> !IsJsWhitespace(word[k])
    requires forall k :: 0 <= k < |arg| ==> !IsJsWhitespace(arg[k])
    requires line == word + " " + arg
    ensures RunCommand(doc, line) == Execute(doc, Dispatch(word, arg))
  {
    ParseCommandLine(word, arg);
  }

  /** "cd " followed by a folder name moves to that folder. */
  lemma CdFolder(doc: Document, f: string)
    requires f in FileManager.Folders()
    ensures RunCommand(doc, "cd " + f) == Reply(Print("Moved to " + f), None)
  {
    FolderNamesPlain(f);
    CommandWordsPlain("cd");
    assert "cd " + f == "cd" + " " + f;
    RunPlainLine(doc, "cd", f, "cd " + f);
    var c := Dispatch("cd", f);
    assert c == Cd(f);
  }

  /** "open " followed by a plain app name asks to open that app's window
      exactly when the document has one, and says so. */
  lemma OpenApp(doc: Document, app: string)
    requires app != "" && forall k :: 0 <= k < |app| ==> !IsJsWhitespace(app[k])
    ensures RunCommand(doc, "open " + app).openRequest.Some? <==> GetElementById(doc, "win-" + app).Some?
    ensures GetElementById(doc, "win-" + app).Some? ==>
      RunCommand(doc, "open " + app) == Reply(Print("Opening " + app + "..."), Some("win-" + app))
  {
    CommandWordsPlain("open");
    assert "open " + app == "open" + " " + app;
    RunPlainLine(doc, "open", app, "open " + app);
    var c := Dispatch("open", app);
    assert c == Open(app);
  }

  /* ---------------------------------------------------------------
     The Enter key
     --------------------------------------------------------------- */

  /** The output buffer after Enter, given what the command did to it: the
      line is echoed as "$ " + cmd, then `clear` empties the buffer, echo
      included, and any other command's line follows the echo. */
  function EnterBuffer(buffer: string, cmd: string, o: Output): (out: string)
    ensures o.ClearScreen? ==> out == ""
    ensures o.Print? ==> var echo := "$ " + cmd + "\n";
      && |out| == |buffer| + |echo| + |o.text| + 1
      && out[..|buffer|] == buffer
      && out[|buffer|..|buffer| + |echo|] == echo
      && out[|buffer| + |echo|..] == o.text + "\n"
  {
    match o
    case ClearScreen => ""
    case Print(t) =>
      PrintTwice(buffer, "$ " + cmd, t);
      TermPrint(TermPrint(buffer, "$ " + cmd), t)
  }

  /** Pressing Enter: the buffer changes as above, and an `open` request
      opens the window; nothing else changes the shell. */
  function Enter(doc: Document, s: Shell.Shell, buffer: string, cmd: string): (r: (Shell.Shell, string))
    ensures r.1 == EnterBuffer(buffer, cmd, RunCommand(doc, cmd).output)
    ensures RunCommand(doc, cmd).openRequest.None? ==> r.0 == s
    ensures RunCommand(doc, cmd).openRequest.Some? ==> r.0 == Shell.OpenWindow(doc, s, RunCommand(doc, cmd).openRequest.value)
  {
    var reply := RunCommand(doc, cmd);
    var s' := match reply.openRequest
      case None => s
      case Some(id) => Shell.OpenWindow(doc, s, id);
    (s', EnterBuffer(buffer, cmd, reply.output))
  }

  /** Unless the command is `clear`, Enter keeps the old buffer, then
      writes the echo, and the command's line comes last. */
  lemma EchoThenOutput(doc: Document, s: Shell.Shell, buffer: string, cmd: string)
    requires Tokens(cmd)[0] != "clear"
    ensures var out := Enter(doc, s, buffer, cmd).1;
            var echo := "$ " + cmd + "\n";
      && out[..|buffer|] == buffer
      && out[|buffer|..|buffer| + |echo|] == echo
      && out[|buffer| + |echo|..] == RunCommand(doc, cmd).output.text + "\n"
  {
    NotClearPrints(doc, cmd);
  }

  /** `clear` leaves an empty buffer, its own echo included. */
  lemma ClearEmptiesBuffer(doc: Document, s: Shell.Shell, buffer: string, cmd: string)
    requires Tokens(cmd)[0] == "clear"
    ensures Enter(doc, s, buffer, cmd) == (s, "")
  {
    var c := Parse(cmd);
    assert c == Clear;
  }

  /** Every command but `clear` prints a line. */
  lemma NotClearPrints(doc: Document, cmd: string)
    requires Tokens(cmd)[0] != "clear"
    ensures RunCommand(doc, cmd).output.Print?
  {
    var c := Parse(cmd);
    assert c != Clear;
  }

  /** Two lines printed in turn follow the old buffer in that order. */
  lemma PrintTwice(buffer: string, a: string, b: string)
    ensures var out := TermPrint(TermPrint(buffer, a), b);
            var line := a + "\n";
      && out[..|buffer|] == buffer
      && out[|buffer|..|buffer| + |line|] == line
      && out[|buffer| + |line|..] == b + "\n"
  {
    assert TermPrint(TermPrint(buffer, a), b) == buffer + (a + "\n") + (b + "\n");
  }

  /** Terminal commands keep the shell invariant. */
  lemma EnterKeepsInv(doc: Document, s: Shell.Shell, buffer: string, cmd: string)
    requires WellFormed(doc)
    requires ShellInvariants.Inv(doc, s)
    ensures ShellInvariants.Inv(doc, Enter(doc, s, buffer, cmd).0)
  {
    var reply := RunCommand(doc, cmd);
    if reply.openRequest.Some? {
      ShellInvariants.OpenKeepsInv(doc, s, reply.openRequest.value);
    }
  }
}

=== FILE: text.dfy ===
/** The few JavaScript string operations the shell and the terminal use:
    `trim`, `split(" ")`, `join` and `replace(pattern, replacement)` with a
    plain-string pattern. */
module Text {
  import opened Seqs

  /** The characters `String.prototype.trim` removes: WhiteSpace and
      LineTerminator of ECMA-262 (section 12.2 and 12.3), i.e. tab, vertical
      tab, form feed, the byte order mark, the Unicode space separators, line
      feed, carriage return, and the line and paragraph separators. */
  predicate IsJsWhitespace(c: char) {
    || c == '\t' || c == '\n' || c == '\U{B}' || c == '\U{C}' || c == '\r'
    || c == ' ' || c == '\U{A0}' || c == '\U{1680}'
    || ('\U{2000}' <= c <= '\U{200A}')
    || c == '\U{2028}' || c == '\U{2029}' || c == '\U{202F}' || c == '\U{205F}'
    || c == '\U{3000}' || c == '\U{FEFF}'
  }

  /** `r` is the slice of `s` starting at `i`, and everything of `s` outside
      that slice is whitespace. */
  predicate PaddedBy(s: string, r: string, i: nat) {
    && i + |r| <= |s| && r == s[i..i + |r|]
    && (forall k :: 0 <= k < i ==> IsJsWhitespace(s[k]))
    && (forall k :: i + |r| <= k < |s| ==> IsJsWhitespace(s[k]))
  }

  /** Leading whitespace removed. */
  function TrimStart(s: string): (r: string)
    ensures |r| <= |s| && PaddedBy(s, r, |s| - |r|)
    ensures |r| > 0 ==> !IsJsWhitespace(r[0])
  {
    if |s| > 0 && IsJsWhitespace(s[0]) then
      var r := TrimStart(s[1..]);
      PaddedTrans(s, s[1..], r, 1, |s| - 1 - |r|);
      r
    else s
  }

  /** Trailing whitespace removed. */
  function TrimEnd(s: string): (r: string)
    ensures PaddedBy(s, r, 0)
    ensures |r| > 0 ==> !IsJsWhitespace(r[|r| - 1])
  {
    if |s| > 0 && IsJsWhitespace(s[|s| - 1]) then
      var r := TrimEnd(s[..|s| - 1]);
      PaddedTrans(s, s[..|s| - 1], r, 0, 0);
      r
    else s
  }

  /** Padding of padding is padding: whitespace cut from `s` to give `t`,
      then from `t` to give `r`, is whitespace cut from `s` to give `r`. */
  lemma PaddedTrans(s: string, t: string, r: string, i: nat, j: nat)
    requires PaddedBy(s, t, i) && PaddedBy(t, r, j)
    ensures PaddedBy(s, r, i + j)
  {
    forall m | 0 <= m < |r| ensures r[m] == s[i + j + m] {
      assert r[m] == t[j + m];
    }
    forall k | 0 <= k < i + j ensures IsJsWhitespace(s[k]) {
      if k >= i {
        assert s[k] == t[k - i];
      }
    }
    forall k | i + j + |r| <= k < |s| ensures IsJsWhitespace(s[k]) {
      if k < i + |t| {
        assert s[k] == t[k - i];
      }
    }
  }

  /** `s.trim()`: the longest slice of `s` that neither starts nor ends with
      whitespace, obtained by cutting only whitespace off both ends. */
  function Trim(s: string): (r: string)
    ensures |r| > 0 ==> !IsJsWhitespace(r[0]) && !IsJsWhitespace(r[|r| - 1])
    ensures exists i: nat :: PaddedBy(s, r, i)
  {
    var t := TrimStart(s);
    var r := TrimEnd(t);
    PaddedTrans(s, t, r, |s| - |t|, 0);
    r
  }

  /** A string with no whitespace at either end is left as it is. */
  lemma TrimClean(s: string)
    requires |s| > 0 ==> !IsJsWhitespace(s[0]) && !IsJsWhitespace(s[|s| - 1])
    ensures Trim(s) == s
  {
  }

  /** `parts.join(sep)`. */
  function JoinWith(parts: seq<string>, sep: string): string {
    if |parts| == 0 then ""
    else if |parts| == 1 then parts[0]
    else parts[0] + sep + JoinWith(parts[1..], sep)
  }

  /** `s.split(" ")`: the pieces between single spaces. There is always at
      least one piece, no piece holds a space, and joining the pieces back
      with single spaces gives the input again; two spaces in a row produce
      an empty piece. */
  function Split(s: string): (parts: seq<string>)
    ensures |parts| >= 1
    ensures forall k :: 0 <= k < |parts| ==> ' ' !in parts[k]
    ensures JoinWith(parts, " ") == s
    decreases |s|
  {
    if ' ' !in s then [s]
    else
      var i := IndexOf(s, ' ');
      var rest := Split(s[i + 1..]);
      assert s == s[..i] + " " + s[i + 1..];
      assert ([s[..i]] + rest)[1..] == rest;
      [s[..i]] + rest
  }

  /** Splitting undoes joining: a non-empty list of space-free pieces
      survives `join(" ")` followed by `split(" ")`. */
  lemma {:induction false} SplitJoin(parts: seq<string>)
    requires |parts| >= 1
    requires forall k :: 0 <= k < |parts| ==> ' ' !in parts[k]
    ensures Split(JoinWith(parts, " ")) == parts
  {
    if |parts| > 1 {
      var p := parts[0];
      var rest := JoinWith(parts[1..], " ");
      var s := p + " " + rest;
      assert s[|p|] == ' ';
      assert s[..|p|] == p;
      assert IndexOf(s, ' ') == |p| by {
        assert ' ' !in s[..|p|];
      }
      assert s[|p| + 1..] == rest;
      SplitJoin(parts[1..]);
      assert parts == [p] + parts[1..];
    }
  }

  /** A space-free head is the first piece; splitting continues after the
      first space. */
  lemma SplitAfterFirstSpace(a: string, b: string)
    requires ' ' !in a
    ensures Split(a + " " + b) == [a] + Split(b)
  {
    var s := a + " " + b;
    assert s[|a|] == ' ';
    assert s[..|a|] == a;
    assert IndexOf(s, ' ') == |a| by {
      assert ' ' !in s[..|a|];
    }
    assert s[|a| + 1..] == b;
  }

  /** True when `pat` occurs in `s` starting at position `i`. */
  predicate OccursAt(s: string, pat: string, i: nat) {
    i + |pat| <= |s| && s[i..i + |pat|] == pat
  }

  /** `i` is where `pat` first occurs in `s`. */
  predicate FirstAt(s: string, pat: string, i: nat) {
    OccursAt(s, pat, i) && forall j: nat :: j < i ==> !OccursAt(s, pat, j)
  }

  /** `s.replace(pat, rep)` for a plain pattern: the first occurrence of `pat`
      is replaced by `rep`; a string without `pat` is returned unchanged. */
  function ReplaceFirst(s: string, pat: string, rep: string): (r: string)
    ensures forall i: nat :: FirstAt(s, pat, i) ==> r == s[..i] + rep + s[i + |pat|..]
    ensures (forall i: nat :: !OccursAt(s, pat, i)) ==> r == s
    decreases |s|
  {
    if OccursAt(s, pat, 0) then
      assert s[..0] == [];
      rep + s[|pat|..]
    else if |s| == 0 then s
    else
      var r' := ReplaceFirst(s[1..], pat, rep);
      ReplaceAfterHead(s, pat, rep, r');
      [s[0]] + r'
  }

  /** Occurrences in the tail of a string are the occurrences in the string
      one position later. */
  lemma OccursInTail(s: string, pat: string, i: nat)
    requires |s| > 0
    ensures OccursAt(s[1..], pat, i) <==> OccursAt(s, pat, i + 1)
  {
    if i + 1 + |pat| <= |s| {
      assert s[i + 1..i + 1 + |pat|] == s[1..][i..i + |pat|];
    }
  }

  /** When `pat` does not start `s`, its first occurrence in `s` is one
      position after its first occurrence in the tail. */
  lemma FirstInTail(s: string, pat: string, i: nat)
    requires |s| > 0 && !OccursAt(s, pat, 0) && FirstAt(s, pat, i)
    ensures i >= 1 && FirstAt(s[1..], pat, i - 1)
  {
    OccursInTail(s, pat, i - 1);
    forall j: nat | j < i - 1 ensures !OccursAt(s[1..], pat, j) {
      OccursInTail(s, pat, j);
    }
  }

  /** Putting the head back in front of a replacement made in the tail. */
  lemma ConsReplaced(s: string, rep: string, i: nat, n: nat)
    requires 1 <= i <= n <= |s|
    ensures [s[0]] + (s[1..][..i - 1] + rep + s[1..][n - 1..]) == s[..i] + rep + s[n..]
  {
    assert s[..i] == [s[0]] + s[1..][..i - 1];
    assert s[1..][n - 1..] == s[n..];
  }

  /** When `pat` does not start `s`, replacing in the tail and putting the
      head back replaces the first occurrence in `s`. */
  lemma ReplaceAfterHead(s: string, pat: string, rep: string, r': string)
    requires |s| > 0 && !OccursAt(s, pat, 0)
    requires forall i: nat :: FirstAt(s[1..], pat, i) ==> r' == s[1..][..i] + rep + s[1..][i + |pat|..]
    requires (forall i: nat :: !OccursAt(s[1..], pat, i)) ==> r' == s[1..]
    ensures forall i: nat :: FirstAt(s, pat, i) ==> [s[0]] + r' == s[..i] + rep + s[i + |pat|..]
    ensures (forall i: nat :: !OccursAt(s, pat, i)) ==> [s[0]] + r' == s
  {
    forall i: nat | FirstAt(s, pat, i) ensures [s[0]] + r' == s[..i] + rep + s[i + |pat|..] {
      FirstInTail(s, pat, i);
      ConsReplaced(s, rep, i, i + |pat|);
    }
    if forall i: nat :: !OccursAt(s, pat, i) {
      forall i: nat ensures !OccursAt(s[1..], pat, i) {
        OccursInTail(s, pat, i);
      }
      assert [s[0]] + s[1..] == s;
    }
  }
}
